=== FILE: README.md ===
# ModerKit moderation logic in Dafny

This project models the decision logic of the ModerKit browser extension and proves properties of it.

- **Background service** (`background.js`):
  - the fixed-window request budget, 15 provider calls per 60,000 ms;
  - the extraction and clamping of the provider's JSON reply;
  - the weighted-pattern fallback classifier and the "skipped" default result;
  - the statistics accumulator and badge text;
  - the message dispatcher, which answers every analysis request with a result.
- **Content script** (`content/content.js`):
  - the qualification predicate for text elements;
  - candidate extraction with de-duplication;
  - the mutation collector;
  - per-element counting through `processedElements`;
  - slicing into batches of ten;
  - the scan re-entrancy guard;
  - the quick pattern scorer;
  - the "mark safe" counter move.
- **Demo** (`demo.js`):
  - the toxicity, spam and sentiment scorers and the review recommendation;
  - the demo content script's element filter and display decisions;
  - the `MemoryService` store with its query, ordering, learning patterns and insights.

Regular expressions are not modelled. Each pattern is a `Pattern` constant, and a `Matcher` parameter gives the matches of a pattern in a text. An empty result stands for `String.prototype.match` returning `null`. Scores are exact `real`s. The clock (`now`), random identifiers, `JSON.parse`, `new URL(...).hostname` and the provider's reply are parameters. A thrown error is the `Thrown` case of `Outcomes.Completion`.

Modules, one per file:

- **Outcomes**: `Option` and `Completion`.
- **Seqs**: filter, slicing, chunking.
- **Text**: trim, lowercase, whitespace split, decimal rendering.
- **Patterns**: the pattern names and the weighted-table scoring shared by all classifiers.
- **Analysis**: the result record and clamping.
- **RateLimit**, **Reply**, **Fallback** and **Background**: `background.js`.
- **Dom**: a small element tree with `textContent` and document-order descendants.
- **QuickScan** and **Registry**: `content/content.js`.
- **Demo** and **Memory**: `demo.js`.

Page state is a `Registry.Page` record holding `analyzed`, `flagged`, `approved`, `isAnalyzing`, the processed element ids and the annotated element ids. Every handler is a pure transition on it. The main invariant is `flagged + approved == analyzed` with both parts non-negative. `Registry.EventsKeepBalance` proves it survives any sequence of scans, mutation batches, submitted batches and "mark safe" clicks.

## Model

| member | source | states |
|---|---|---|
| RateLimit.Roll | background.js:139-143 | A window more than 60,000 ms old is reopened at `now` with nothing counted; a younger one is left as it is; the count stays within 0..15 |
| RateLimit.Record | background.js:153 | Counting a completed call adds exactly one and keeps the window's opening time |
| RateLimit.Acquire | background.js:139-153 | A request is granted iff the rolled window holds fewer than 15 calls; a granted request is counted in the rolled window, a refused one leaves the rolled window uncounted; the budget is never overdrawn |
| RateLimit.AcquireWithinWindow | background.js:139-153 | Inside one window the k-th request is granted iff count + k < 15, the count saturates at 15 and the window never moves |
| RateLimit.SixteenthRequestRefused | background.js:145-147 | In a fresh window, fifteen requests are granted, the sixteenth is refused and the count is 15 |
| RateLimit.ExpiredWindowGrants | background.js:139-147 | Once the window has expired, the next request reopens it and is granted whatever the old count was |
| RateLimit.GetStatus | background.js:166-175 | The status reports the stored count (it never resets it) and a capacity of 15. The time left is max(0, 60,000 − elapsed): it is zero exactly when 60,000 ms or more have passed, and otherwise equals 60,000 minus the time since the window opened. While time is left the window does not roll |
| RateLimit.StatusZeroBeforeReset | background.js:166-175 | At exactly 60,000 ms the status already shows no time left, yet a request at that instant is still counted in the old window |
| Reply.MatchObject | background.js:248-251 | The greedy object match exists iff some `{` precedes some `}`; it starts at the first `{` of the reply and ends at its last `}` |
| Reply.FromFields | background.js:255-267 | All four scores lie in [0, 1]. Each of toxicity, spam and hate speech is read the same way: a missing or zero value gives 0, an in-range value is kept, a value above 1 gives 1 and one below 0 gives 0. Confidence is read likewise with the default 0.5. A missing flag is false, missing issues are empty, a missing or empty reasoning becomes "AI analysis completed", a missing or empty content type becomes "normal", and the excerpt is the first 100 characters |
| Reply.ParseResponse | background.js:246-273 | Parsing fails, always with the single "Failed to parse AI analysis result" error, iff no object is found or `JSON.parse` fails; a reply with no `{` before a `}` always fails; a success is exactly the field mapping of what `JSON.parse` returns for the matched object |
| Reply.MatchRecoversWrappedObject | background.js:248-253 | An object wrapped in prose with no `{` before it and no `}` after it is extracted exactly, whatever braces it contains |
| Reply.InRangeRepliesRoundTrip | background.js:256-260 | A reply whose scores are present and in range and whose confidence is nonzero is read back without change |
| Patterns.RawScore | background.js:295-309 | With positive weights the weighted sum is non-negative, and it is zero iff no pattern matched |
| Patterns.Issues | background.js:295-309 | Line i is the heading followed by the matches, joined with ", ", of the i-th entry that matched at least once, in table order; there are no other lines |
| Patterns.MatchedPositionsExactly | background.js:295-309 | The positions used for the issue lines are strictly increasing and are exactly the entries with at least one match |
| Patterns.TwoTierIssues | content/content.js:354-368 | When two tables' issue lines are concatenated, the first table's lines come first under its heading and the rest carry the second heading. The first part lists the lines of the first table's matching entries and the second part those of the second table |
| Fallback.RawToxicity | background.js:280-301 | The toxicity sum is 0.8 × insult matches + 0.9 × bigotry matches + 0.3 × profanity matches, and it is non-negative |
| Fallback.RawSpam | background.js:286-309 | The spam sum is 0.7 × spam-phrase matches + 0.6 × urgency matches, and it is non-negative |
| Fallback.FallbackIssues | background.js:293-309 | There is at most one line per matching pattern, five in all; toxic lines come before spam lines and each carries its heading. The toxic part holds the toxic heading plus the joined matches of each matching toxic entry, in order; the spam part does the same for the spam entries |
| Fallback.FallbackAnalysis | background.js:275-326 | Scores are in range: toxicity is min(raw toxicity, 1), spam is min(raw spam, 1), and hate speech is min(0.8 × raw toxicity, 1), so it never exceeds toxicity. The text is flagged iff raw toxicity or raw spam exceeds 0.6. The content type is "normal" iff the text is not flagged. Otherwise it is "toxic" iff raw toxicity exceeds raw spam, and "spam" otherwise. Confidence is 0.8 and the provider is fallback. The excerpt is the first 100 characters. |
| Fallback.FlagAgreesWithReportedScores | background.js:311-316 | Because clamping at 1 never crosses 0.6, the fallback flags iff a reported (clamped) score exceeds 0.6 |
| Fallback.TwoProfanitiesDoNotFlag | background.js:283-321 | Two profanity hits alone sum to exactly 0.6: the text is not flagged and its type is "normal" |
| Fallback.OneInsultFlagsAsToxic | background.js:281-321 | A single insult alone flags the text as "toxic" with exactly one toxic-language issue |
| Fallback.OneUrgencyDoesNotFlag | background.js:288-316 | One urgency cue alone gives spam 0.6 and does not flag |
| Fallback.DefaultAnalysis | background.js:328-342 | The skipped result has all scores 0, is not flagged, has confidence 0.9, no issues, type "normal", the default provider, and the whole text untruncated |
| Background.Init | background.js:9-17 | A new service has zeroed statistics, an empty memory, an empty badge and a valid, empty rate window |
| Background.StoreMemory | background.js:358-370 | Storing adds exactly the fresh id to the memory map and changes no other entry, no statistic, no window, no key and no badge; the new id maps to itself |
| Background.AnalyzeWithProvider | background.js:127-164 | With no key it throws the key-missing error and leaves the state alone. With a text under 10 characters it returns the default result and leaves the state alone. With a spent rolled window it throws "Rate limit exceeded". When the provider call throws, that error is rethrown. When it returns, the result is exactly the parse of its reply, so a parse failure is rethrown as the parse error. Only when the call and the parse both succeed does the state change beyond the roll: the window becomes the rolled window with one more call recorded, and the memory gains the new id. On every path past the length check that does not succeed, the state is the old one with the rolled window. On other paths the memory is unchanged. The budget bound is kept. |
| Background.UpdateStats | background.js:344-347 | Each counter grows by its delta, a missing delta counting as 0 |
| Background.BadgeText | background.js:350-352 | The badge is empty iff the flagged count is not positive; otherwise it reads back as the flagged count |
| Background.HandleMessage | background.js:71-119 | An analysis request always succeeds with an in-range result. Its state is that of the provider path; its answer is the provider path's result when that returns, and the fallback result for the thrown error otherwise (with no key, the key-missing error and an unchanged state). `GET_STATS` changes nothing and returns the statistics. `GET_API_STATUS` changes nothing and reports whether a key is set together with the rate-limit status of the window at that instant. `SET_API_KEY` stores the key. An unknown type changes nothing and fails. `UPDATE_STATS` adds the deltas, answers with the new statistics and sets the badge to empty iff flagged ≤ 0, to the flagged count otherwise. `UPDATE_STATS` also leaves the window, the memory and the key unchanged. `STORE_MEMORY` is exactly `storeMemory`: it adds the new id and changes no other entry, statistic, window, key or badge. The budget bound is preserved. |
| Background.RunKeepsBudget | background.js:139-153 | Handled one at a time, any sequence of messages keeps the window count within 0..15 |
| Background.FreshServiceKeepsBudget | background.js:9-17 | Starting from a new service, any sequence of messages keeps the window count within 0..15 |
| Text.Trim | content/content.js:219 | The trimmed text is the stretch of the input between a prefix and a suffix that are all white space, and it has no white space at either end; it is empty iff the input is all white space |
| Text.TrimIdempotent | content/content.js:219 | Trimming twice is trimming once |
| Text.SplitSpacesFields | demo.js:87 | The fields of a split on white space contain no white space, only the first and last can be empty, and the text is the fields with one non-empty run of white space between each two; so they are the maximal white-space-free stretches, and together hold exactly the non-white-space characters in order |
| Text.DecimalRoundTrip | background.js:351 | The decimal rendering of a count reads back as the same count |
| Seqs.Chunks | content/content.js:291-292 | The slices concatenate back to the input; each holds 1 to k elements, and all but the last hold exactly k |
| Seqs.SliceTo | demo.js:299 | `slice(0, n)` keeps the first n elements (all of them if fewer); a negative n drops that many from the end |
| Dom.NoOwnTextNoDirectLength | content/content.js:224-228 | An element with no non-blank text child of its own has direct text length 0 |
| QuickScan.HighScore | content/content.js:354-360 | The high-severity sum is 0.8 per high match |
| QuickScan.MediumScore | content/content.js:362-368 | The medium-severity sum is 0.6 per medium match |
| QuickScan.QuickIssues | content/content.js:354-368 | There is one line per matching pattern, six in all; high-severity lines come first. Each line is its tier's heading plus the joined matches of that tier's matching entries, in table order |
| QuickScan.QuickAnalyze | content/content.js:335-382 | Toxicity is min(0.8 × high matches, 1), so it is one of 0, 0.8 and 1. Spam is min(0.6 × medium matches, 1), so it is one of 0, 0.6 and 1. Each severity flag is set iff its tier has at least one match, which is iff its score is positive. Confidence is 0.85 and the excerpt is the first 100 characters. |
| Registry.Initial | content/content.js:79-85 | The declared globals are balanced |
| Registry.QualificationExactly | content/content.js:216-229 | An element qualifies iff all three hold: its trimmed text has 15 to 2000 characters, it is unprocessed, and its own text children hold more than 10 trimmed characters |
| Registry.ContainerDoesNotQualify | content/content.js:224-228 | A container whose text all sits in nested elements never qualifies |
| Registry.SelectValid | content/content.js:204-210 | The selector pass (`querySelectorAll` per selector, then the validity filter) returns exactly the qualifying pool elements that a selector matches |
| Registry.Dedup | content/content.js:212 | De-duplication keeps only input elements, no id twice, every id of the input, and the first element first |
| Registry.ExtractTextElements | content/content.js:195-213 | The candidates of a node are all valid and distinct, with the node first when it qualifies; each is the node or a selected descendant, and every selected descendant is among them |
| Registry.CollectOne | content/content.js:164-177 | Every collected element is valid. An element is collected iff it is a candidate of an added element node or the qualifying parent of a changed text node. A text change that adds no nodes contributes its parent element iff that element qualifies, and nothing otherwise |
| Registry.CollectAdded | content/content.js:164-169 | An element is collected iff it is among the candidates of some added element node; added text nodes contribute nothing |
| Registry.ChangedParent | content/content.js:171-176 | A changed text node contributes exactly its parent, and only when that parent qualifies |
| Registry.Collect | content/content.js:160-178 | Every element the callback collects is valid and unprocessed, and an element is collected iff some mutation of the batch contributes it |
| Registry.AnalyzeElement | content/content.js:308-327 | A processed element changes nothing; otherwise `analyzed` grows by one, the element is remembered, and exactly one of `flagged` and `approved` grows by one, so `flagged + approved - analyzed` is preserved. `flagged` grows iff the trimmed text is classified HIGH or MEDIUM, and exactly then the element's id is added to the annotated set, which otherwise stays the same |
| Registry.ProcessAllEffect | content/content.js:309-312 | Processing a list remembers all its elements, counts each distinct new element exactly once, leaves the scan flag alone and keeps the page balanced |
| Registry.ProcessAllProcessed | content/content.js:309 | A list of processed elements changes nothing |
| Registry.ProcessAllIdempotent | content/content.js:309 | Processing the same list twice is processing it once |
| Registry.ProcessAllAppend | content/content.js:291-295 | Processing a list in two consecutive parts is processing it whole |
| Registry.AnalyzeSlice | content/content.js:293-295 | The loop over one slice gives the page that processing the slice in order gives |
| Registry.AnalyzeElementsBatch | content/content.js:288-305 | The slices formed are exactly the 10-element chunks of the input, and the final page is that of processing the whole input in order |
| Registry.BatchCount | content/content.js:291-292 | n elements give ⌈n / 10⌉ slices |
| Registry.FindAllTextElements | content/content.js:271-285 | The page scan returns exactly the qualifying elements of the document that a page selector matches |
| Registry.StartAnalysis | content/content.js:232-268 | While a scan runs, the call changes nothing. Otherwise the counters restart at zero, every distinct new qualifying element is counted once, the page ends balanced with the flag cleared, and an empty page leaves all counters at zero. The resulting page is exactly the restarted page after every element `findAllTextElements` returns has been run, in order, through the per-element analysis (`ProcessAll`, whose `AnalyzeElement` step flags and annotates an element iff its band is HIGH or MEDIUM), with the flag then cleared. The outcome is "no content" iff the scan found no element |
| Registry.OnMutations | content/content.js:158-183 | A batch is dispatched iff something was collected; without a batch the page is unchanged; with one it is the collected elements processed in order, and balance is kept |
| Registry.MarkSafe | content/content.js:16-59 | An unannotated id changes nothing. Otherwise the annotation is removed and, if a flag is counted, one moves from flagged to approved. The annotated set becomes exactly the old one minus the target; `analyzed`, the processed set, the analysing flag and balance are unchanged |
| Registry.MarkSafeTwice | content/content.js:16-59 | Clearing the same element a second time changes nothing more |
| Registry.EventsKeepBalance | content/content.js:232-332 | After any sequence of scans, mutation batches, submitted batches and user overrides, `flagged + approved == analyzed` with both non-negative |
| QuickScan.TwoHighHitsSaturate | content/content.js:354-375 | One violence and one insult hit saturate quick toxicity at 1 and set the high-severity flag |
| Demo.ToxicityScore | demo.js:51-65 | Toxicity is min(0.3 × total matches of the two patterns, 1) and lies in [0, 1] |
| Demo.SpamScore | demo.js:67-81 | Spam is min(0.25 × total matches, 1) and lies in [0, 1] |
| Demo.ToxicityThresholds | demo.js:51-65 | Toxicity exceeds 0.4 iff there are at least two matches, and exceeds 0.6 or 0.7 iff there are at least three |
| Demo.SpamThreshold | demo.js:67-81 | Spam exceeds 0.6 iff there are at least three matches |
| Demo.AnalyzeSentiment | demo.js:83-97 | The result is positive iff there are more positive than negative words, negative iff the reverse, and neutral iff the counts are equal |
| Demo.NoListedWordsIsNeutral | demo.js:83-97 | A text with no listed word is neutral |
| Demo.AnalyzeContent | demo.js:20-49 | The scores and sentiment are those of the three scorers. There is one review recommendation iff toxicity exceeds 0.7, and none otherwise. With no memory service the call succeeds and stores nothing. With a service, an unparsable URL rejects the call. Otherwise the store gains exactly the new id. |
| Demo.RecommendationIffThreeMatches | demo.js:33-39 | Exactly one recommendation is made iff there are at least three toxic matches |
| Demo.QualifiedIsTextElement | demo.js:137-145 | Illustration (the two filters are never applied to the same element): an element the extension would analyse, with a listed tag, also passes the demo's filter |
| Demo.FindTextElements | demo.js:121-135 | The walker returns exactly the text elements below the body |
| Demo.MutationTargets | demo.js:254-264 | As written, every added element node makes the callback visit every text element of the body, and nothing else; the visits number the body's text elements times the added element nodes |
| Demo.OncePerElementNode | demo.js:256-261 | The body's list is visited once for each added element node: the result holds only its elements, all of them, and has its length times the number of added element nodes |
| Demo.IntendedMutationTargets | demo.js:254-264 | The intended callback visits only text elements |
| Demo.IntendedTargetsComplete | demo.js:254-264 | The intended callback visits every text element inside every added element |
| Demo.AddedNodeIsIgnored | demo.js:259 | Inserting an empty element re-visits the whole body as written; the intended callback visits nothing |
| Demo.ProcessAnalysisResult | demo.js:187-197 | An overlay is shown iff toxicity or spam exceeds 0.6; the moderate marker is shown iff toxicity exceeds 0.4 |
| Demo.DisplayFromMatches | demo.js:187-197 | Illustration (the demo feeds the display random mock scores, not the scorers): were it fed the demo scores, an overlay would take three toxic or three spam matches, and the marker two toxic matches |
| Memory.Put | demo.js:289 | `Map.set` overwrites the entry with the same id in place, or appends the new entry; no other entry changes |
| Memory.PutIds | demo.js:289 | Storing adds exactly the new id and keeps ids distinct |
| Memory.SortByRecency | demo.js:297 | The sort is a permutation that orders entries newest first |
| Memory.Retrieve | demo.js:294-301 | Every result matches the query and is in the store. Results are newest first. For a non-negative limit their number is min(limit, number of matches), where a missing or zero limit means 10. No omitted match is newer than a returned one, and the results are a sub-multiset of the matches, so no entry is repeated |
| Memory.EmptyQueryMatchesAll | demo.js:303-307 | The empty query matches every entry and returns the ten newest |
| Memory.UpdateLearningPatterns | demo.js:309-320 | The entry's `type_domain` key (domain defaulting to "unknown") is created if new, counted once more and stamped with the time; no other key changes |
| Memory.PatternKeysCanCollide | demo.js:310-311 | Two different type and domain pairs can share a key, because the key joins them with an underscore |
| Memory.StoreMemory | demo.js:280-292 | The id is returned and added to the store's ids. The new entry is in the store. Every other entry stays, and nothing else is added. Distinct ids stay distinct. The pattern table is updated for the entry: its key is added, its count goes up by one from its old value (0 if new) and it is stamped with the time. |
| Memory.StoredThenRetrievedFirst | demo.js:280-301 | An entry stored later than everything else is the first answer to every query it matches |
| Memory.NewestMatchFirst | demo.js:294-301 | In any store, an entry strictly newer than every other entry is the first answer to every query it matches whose limit is positive |
| Memory.GetInsights | demo.js:322-330 | The insights report the sizes of the store and the pattern table and the min(5, size) newest entries; no omitted entry is newer than a reported one. The reported entries are a sub-multiset of the store, so none is repeated |

## Left out

- **`popup/popup.js`**: left out entirely. It is toolbar display and tab plumbing.
- **Chrome APIs**: messaging, `chrome.storage` loading and saving, and the badge colour are left out. Only the state effects of the handlers are modelled.
- **`callGeminiAPI`**: the network call is not part of this model. Its outcome is the `providerReply` parameter, and the prompt built by `buildAnalysisPrompt` is not modelled.
- **Parsers**: `JSON.parse` is a parameter that fails or yields optional fields. `extractDomain` and `new URL(url).hostname` are an `Option<string>` parameter.
- **Clock and randomness**: `Date.now()` and `Math.random()` are parameters. So are the memory ids, and the demo's random `requestContentAnalysis`. That last one is not modelled.
- **Concurrency**: `Promise.all`, the 10 ms yield, timers and the fire-and-forget `enhanceWithAI` are sequential steps here. The rate check and the increment are separated by an `await`. The 15-request bound is therefore proved only for messages handled one at a time.
- **Regex engine**: matching is the `Matcher` parameter. No property depends on what the patterns match, and no concrete tokenizer is given.
- **Numbers**: IEEE-754 rounding is not modelled; scores are exact reals. `NaN` and non-number JSON fields are not modelled either. A reply field has either a number or nothing.
- **Strings**: lengths count characters, not UTF-16 code units. Lower-casing covers ASCII only. White space is the set `trim` and `\s` share: tab to carriage return, space, U+00A0, U+1680, U+2000 to U+200A, U+2028, U+2029, U+202F, U+205F, U+3000 and U+FEFF.
- **Invisible content-script helpers**: the bodies of `determineFlagLevel`, `addVisualFlag`, `addApprovalPulse`, `clearAllOverlaysInternal`, `refreshAnalysis`, `showNotification` and `updateBackgroundStats` are not part of this model.
  - The severity band is an uninterpreted `Classifier`.
  - `addVisualFlag` is assumed to set the `data-moderkit-id` annotation, represented by the `annotated` set.
- **Rendering**: overlays, styles, pulses, popups and notifications are left out. So is the popup removal in `markElementSafe`.
- **Analysis with no text**: an `ANALYZE_CONTENT_AI` request without a text and without a key is left out. There the fallback itself throws on the missing text and the dispatcher answers `success: false`. The model's message always carries a text.
- **Stored memory content**: memory entries carry a string `content`. The analysis object the demo stores is not represented, and the background stores only the id under the id.
- **Thrown errors in `startAnalysis`**: they are not modelled. The only visible code that could throw is in the invisible helpers, and the flag is cleared on every modelled path.
- Memory.SortByRecency: its contract does not state that the sort is stable. The recursive insertion is stable by construction, but no lemma says so.

## Findings

| source | as written | input that shows it | evidently intended | confidence | as-written member | corrected member |
|---|---|---|---|---|---|---|
| demo.js:259 | The mutation callback calls `this.findTextElements(node)`. `findTextElements` (demo.js:121-135) takes no parameter and always walks `document.body`, so the added node is ignored and every text element of the page is re-analysed once per added element node | An empty `div` inserted into a body that holds one paragraph of text: as written the paragraph is analysed again; intended, nothing is | Analyse only the text elements inside the added node. The corrected walker, like a `TreeWalker` rooted at the node, visits the node's descendants but not the node itself, so an appended text paragraph is not visited | not executed | Demo.MutationTargets, Demo.AddedNodeIsIgnored | Demo.IntendedMutationTargets, Demo.IntendedTargetsComplete |

=== FILE: analysis.dfy ===
/** The classification record the background service answers with, and the
    two helpers every producer of it uses: clamping into [0, 1] and
    JavaScript's `value || default`. */
module Analysis {
  import opened Outcomes

  /** The `aiProvider` tag: which path produced the record. */
  datatype Provider = GeminiFlash | Fallback | Default

  datatype Analysis = Analysis(
    toxicity: real,
    spam: real,
    hateSpeech: real,
    shouldFlag: bool,
    confidence: real,
    primaryIssues: seq<string>,
    reasoning: string,
    contentType: string,
    provider: Provider,
    timestamp: int,
    originalText: string)

  /** Every score of the record lies in [0, 1]. */
  predicate ScoresInRange(a: Analysis) {
    && 0.0 <= a.toxicity <= 1.0
    && 0.0 <= a.spam <= 1.0
    && 0.0 <= a.hateSpeech <= 1.0
    && 0.0 <= a.confidence <= 1.0
  }

  /** `Math.min(Math.max(x, 0), 1)`. */
  function Clamp01(x: real): (r: real)
    ensures 0.0 <= r <= 1.0
    ensures 0.0 <= x <= 1.0 ==> r == x
    ensures x < 0.0 ==> r == 0.0
    ensures x > 1.0 ==> r == 1.0
  {
    if x < 0.0 then 0.0 else if x > 1.0 then 1.0 else x
  }

  /** `value || d` on a number: an absent value and `0` are both falsy. */
  function NumberOr(value: Option<real>, d: real): (r: real)
    ensures value.Some? && value.value != 0.0 ==> r == value.value
    ensures value.None? || value.value == 0.0 ==> r == d
  {
    if value.Some? && value.value != 0.0 then value.value else d
  }

  /** `value || d` on a string: an absent value and `""` are both falsy. */
  function StringOr(value: Option<string>, d: string): (r: string)
    ensures value.Some? && value.value != "" ==> r == value.value
    ensures value.None? || value.value == "" ==> r == d
  {
    if value.Some? && value.value != "" then value.value else d
  }
}

=== FILE: background.dfy ===
/** The background service of background.js as a state record and one
    transition per message handler. Everything the handlers read from the
    outside world (the clock, the random memory id, the provider's reply,
    `JSON.parse`, the pattern matcher) arrives in an `Env`. */
module Background {
  import opened Outcomes
  import opened Analysis
  import RateLimit
  import Reply
  import Fallback
  import Patterns
  import Text

  datatype Stats = Stats(analyzed: int, flagged: int, approved: int)

  /** The fields of `ModerKitBackground` the handlers touch. The memory
      store maps each memory id to the value the source stores under it,
      which is the id itself. */
  datatype State = State(
    stats: Stats,
    window: RateLimit.Window,
    apiKey: Option<string>,
    memory: map<string, string>,
    badge: string)

  /** Inputs of one handler run that come from outside the service. */
  datatype Env = Env(
    now: int,
    memoryId: string,
    providerReply: Completion<string>,
    parse: Reply.JsonParser,
    matcher: Patterns.Matcher)

  /** The constructor followed by `init`, with no key found in storage. */
  function Init(now: int): (s: State)
    ensures RateLimit.Valid(s.window) && s.window.count == 0
    ensures s.stats == Stats(0, 0, 0) && s.memory == map[] && s.badge == ""
  {
    State(Stats(0, 0, 0), RateLimit.Window(0, now), None, map[], "")
  }

  /** `!!this.apiKey`: a missing or empty key counts as no key. */
  predicate HasApiKey(s: State) {
    s.apiKey.Some? && s.apiKey.value != ""
  }

  const KeyMissing: string := "API key not configured - using fallback analysis"
  const RateLimitExceeded: string := "Rate limit exceeded"

  /** `storeMemory`: inserts the fresh id, leaving every other entry alone. */
  function StoreMemory(s: State, id: string): (r: State)
    ensures r.memory.Keys == s.memory.Keys + {id}
    ensures forall k :: k in s.memory && k != id ==> r.memory[k] == s.memory[k]
    ensures id in r.memory && r.memory[id] == id
    ensures r.stats == s.stats && r.window == s.window && r.apiKey == s.apiKey && r.badge == s.badge
  {
    s.(memory := s.memory[id := id])
  }

  /** Whether the provider path of `analyzeContentWithGemini` ends with a
      parsed provider result. */
  predicate ProviderSucceeds(s: State, text: string, env: Env) {
    && HasApiKey(s)
    && |text| >= 10
    && !RateLimit.Exhausted(RateLimit.Roll(s.window, env.now))
    && env.providerReply.Normal?
    && Reply.ParseResponse(env.providerReply.value, text, env.now, env.parse).Normal?
  }

  /** `analyzeContentWithGemini`. The key and length checks come before the
      rate check and leave the state alone; the window is rolled before the
      budget is checked; the call is counted only once the reply has been
      obtained and parsed. */
  function AnalyzeWithProvider(s: State, text: string, env: Env): (r: (State, Completion<Analysis>))
    ensures !HasApiKey(s) ==> r == (s, Thrown(KeyMissing))
    ensures HasApiKey(s) && |text| < 10 ==>
              r == (s, Normal(Fallback.DefaultAnalysis(text, "too_short", env.now)))
    ensures HasApiKey(s) && |text| >= 10 && RateLimit.Exhausted(RateLimit.Roll(s.window, env.now)) ==>
              r.1 == Thrown(RateLimitExceeded)
    ensures HasApiKey(s) && |text| >= 10 && !ProviderSucceeds(s, text, env) ==>
              r.0 == s.(window := RateLimit.Roll(s.window, env.now))
    ensures HasApiKey(s) && |text| >= 10 && !RateLimit.Exhausted(RateLimit.Roll(s.window, env.now))
            && env.providerReply.Thrown? ==>
              r.1 == Thrown(env.providerReply.message)
    ensures HasApiKey(s) && |text| >= 10 && !RateLimit.Exhausted(RateLimit.Roll(s.window, env.now))
            && env.providerReply.Normal? ==>
              r.1 == Reply.ParseResponse(env.providerReply.value, text, env.now, env.parse)
    ensures ProviderSucceeds(s, text, env) ==>
              && r.1.Normal? && r.1.value.provider == GeminiFlash
              && r.0.window == RateLimit.Record(RateLimit.Roll(s.window, env.now))
              && r.0.window.count == RateLimit.Roll(s.window, env.now).count + 1
              && r.0.memory.Keys == s.memory.Keys + {env.memoryId}
              && r.0 == StoreMemory(s.(window := r.0.window), env.memoryId)
    ensures !ProviderSucceeds(s, text, env) ==>
              && r.0.memory == s.memory
              && (r.1.Normal? ==> r.1.value.provider == Default)
    ensures r.1.Normal? ==> ScoresInRange(r.1.value)
    ensures RateLimit.Valid(s.window) ==> RateLimit.Valid(r.0.window)
    ensures r.0.stats == s.stats && r.0.apiKey == s.apiKey && r.0.badge == s.badge
  {
    if !HasApiKey(s) then (s, Thrown(KeyMissing))
    else if |text| < 10 then (s, Normal(Fallback.DefaultAnalysis(text, "too_short", env.now)))
    else
      var w := RateLimit.Roll(s.window, env.now);
      var s1 := s.(window := w);
      if RateLimit.Exhausted(w) then (s1, Thrown(RateLimitExceeded))
      else if env.providerReply.Thrown? then (s1, Thrown(env.providerReply.message))
      else
        var parsed := Reply.ParseResponse(env.providerReply.value, text, env.now, env.parse);
        if parsed.Thrown? then (s1, parsed)
        else (StoreMemory(s1.(window := RateLimit.Record(w)), env.memoryId), parsed)
  }

  /** `data.x || 0` on a stats delta. */
  function DeltaOf(d: Option<int>): int {
    if d.Some? then d.value else 0
  }

  /** `updateStats`: each counter grows by its delta, a missing delta
      counting as 0. */
  function UpdateStats(stats: Stats, analyzed: Option<int>, flagged: Option<int>, approved: Option<int>)
    : (r: Stats)
    ensures r.analyzed - stats.analyzed == analyzed.GetOr(0)
    ensures r.flagged - stats.flagged == flagged.GetOr(0)
    ensures r.approved - stats.approved == approved.GetOr(0)
  {
    Stats(stats.analyzed + DeltaOf(analyzed), stats.flagged + DeltaOf(flagged),
          stats.approved + DeltaOf(approved))
  }

  /** The badge text `updateStats` sets: the flagged count when positive,
      otherwise empty. */
  function BadgeText(flagged: int): (r: string)
    ensures r == "" <==> flagged <= 0
    ensures flagged > 0 ==> Text.ParseDecimal(r) == flagged
  {
    if flagged > 0 then
      Text.DecimalRoundTrip(flagged);
      Text.Decimal(flagged)
    else ""
  }

  /** The message types `handleMessage` dispatches on; `Other` is any type
      string besides the six handled ones. */
  datatype Message =
    | AnalyzeContent(text: string, url: string)
    | UpdateStatsMsg(analyzed: Option<int>, flagged: Option<int>, approved: Option<int>)
    | GetStats
    | StoreMemoryMsg
    | GetApiStatus
    | SetApiKey(key: Option<string>)
    | Other(kind: string)

  /** What `sendResponse` receives. Every reply but `Failed` carries
      `success: true`. */
  datatype Response =
    | AnalysisReply(analysis: Analysis)
    | StatsReply(stats: Stats)
    | MemoryReply(memoryId: string)
    | ApiStatusReply(hasApiKey: bool, status: RateLimit.Status)
    | Acknowledged
    | Failed(error: string)
  {
    predicate Success() {
      !Failed?
    }
  }

  /** `handleMessage`. An analysis request always succeeds: any error of the
      provider path, a missing key included, is answered with the fallback
      classification. Reads leave the state unchanged and an unknown type
      is refused. */
  function HandleMessage(s: State, msg: Message, env: Env): (r: (State, Response))
    ensures msg.AnalyzeContent? ==> r.1.AnalysisReply? && r.1.Success()
    ensures msg.AnalyzeContent? && !HasApiKey(s) ==>
              r.0 == s
              && r.1.analysis == Fallback.FallbackAnalysis(msg.text, KeyMissing, env.now, env.matcher)
    ensures msg.AnalyzeContent? ==> r.0 == AnalyzeWithProvider(s, msg.text, env).0
    ensures msg.AnalyzeContent? && AnalyzeWithProvider(s, msg.text, env).1.Normal? ==>
              r.1.analysis == AnalyzeWithProvider(s, msg.text, env).1.value
    ensures msg.AnalyzeContent? && AnalyzeWithProvider(s, msg.text, env).1.Thrown? ==>
              r.1.analysis == Fallback.FallbackAnalysis(msg.text, AnalyzeWithProvider(s, msg.text, env).1.message,
                                                        env.now, env.matcher)
    ensures msg.AnalyzeContent? ==> ScoresInRange(r.1.analysis)
    ensures msg.GetStats? ==> r == (s, StatsReply(s.stats))
    ensures msg.GetApiStatus? ==>
              r.0 == s && r.1.ApiStatusReply? && r.1.hasApiKey == HasApiKey(s)
              && r.1.status == RateLimit.GetStatus(s.window, env.now)
    ensures msg.SetApiKey? ==> r.0 == s.(apiKey := msg.key) && r.1 == Acknowledged
    ensures msg.Other? ==> r.0 == s && !r.1.Success()
    ensures msg.UpdateStatsMsg? ==>
              && r.0.stats.analyzed == s.stats.analyzed + msg.analyzed.GetOr(0)
              && r.0.stats.flagged == s.stats.flagged + msg.flagged.GetOr(0)
              && r.0.stats.approved == s.stats.approved + msg.approved.GetOr(0)
              && (r.0.badge == "" <==> r.0.stats.flagged <= 0)
              && (r.0.stats.flagged > 0 ==> Text.ParseDecimal(r.0.badge) == r.0.stats.flagged)
              && r.0.window == s.window && r.0.memory == s.memory && r.0.apiKey == s.apiKey
              && r.1 == StatsReply(r.0.stats)
    ensures msg.StoreMemoryMsg? ==>
              r.0.memory.Keys == s.memory.Keys + {env.memoryId} && r.1 == MemoryReply(env.memoryId)
    ensures msg.StoreMemoryMsg? ==> r.0 == StoreMemory(s, env.memoryId)
    ensures RateLimit.Valid(s.window) ==> RateLimit.Valid(r.0.window)
  {
    match msg
    case AnalyzeContent(text, _) =>
      var (s1, a) := AnswerAnalysis(s, text, env);
      (s1, AnalysisReply(a))
    case UpdateStatsMsg(a, f, p) =>
      var stats := UpdateStats(s.stats, a, f, p);
      (s.(stats := stats, badge := BadgeText(stats.flagged)), StatsReply(stats))
    case GetStats => (s, StatsReply(s.stats))
    case StoreMemoryMsg => (StoreMemory(s, env.memoryId), MemoryReply(env.memoryId))
    case GetApiStatus =>
      (s, ApiStatusReply(HasApiKey(s), RateLimit.GetStatus(s.window, env.now)))
    case SetApiKey(key) => (s.(apiKey := key), Acknowledged)
    case Other(_) => (s, Failed("Unknown message type"))
  }

  /** The `analyzeContent` case: the provider path's result, or the
      fallback classification of the text for the error it threw. */
  function AnswerAnalysis(s: State, text: string, env: Env): (r: (State, Analysis))
    ensures r.0 == AnalyzeWithProvider(s, text, env).0
    ensures AnalyzeWithProvider(s, text, env).1.Normal? ==> r.1 == AnalyzeWithProvider(s, text, env).1.value
    ensures AnalyzeWithProvider(s, text, env).1.Thrown? ==>
              r.1 == Fallback.FallbackAnalysis(text, AnalyzeWithProvider(s, text, env).1.message, env.now, env.matcher)
    ensures !HasApiKey(s) ==> r == (s, Fallback.FallbackAnalysis(text, KeyMissing, env.now, env.matcher))
    ensures ScoresInRange(r.1)
    ensures RateLimit.Valid(s.window) ==> RateLimit.Valid(r.0.window)
  {
    var (s1, outcome) := AnalyzeWithProvider(s, text, env);
    if outcome.Normal? then (s1, outcome.value)
    else (s1, Fallback.FallbackAnalysis(text, outcome.message, env.now, env.matcher))
  }

  /** One message together with the outside inputs it meets. */
  datatype Delivery = Delivery(msg: Message, env: Env)

  /** Handles the messages one after another. */
  function Run(s: State, ds: seq<Delivery>): State
    decreases |ds|
  {
    if ds == [] then s else Run(HandleMessage(s, ds[0].msg, ds[0].env).0, ds[1..])
  }

  /** Handled one at a time, the messages never let the window hold more
      than 15 counted calls, starting from a fresh service. */
  lemma {:induction false} RunKeepsBudget(s: State, ds: seq<Delivery>)
    requires RateLimit.Valid(s.window)
    ensures RateLimit.Valid(Run(s, ds).window)
    decreases |ds|
  {
    if ds != [] {
      RunKeepsBudget(HandleMessage(s, ds[0].msg, ds[0].env).0, ds[1..]);
    }
  }

  lemma FreshServiceKeepsBudget(now: int, ds: seq<Delivery>)
    ensures 0 <= Run(Init(now), ds).window.count <= 15
  {
    RunKeepsBudget(Init(now), ds);
  }
}

=== FILE: demo.dfy ===
/** The showcase classes of demo.js: the background's toxicity, spam and
    sentiment scorers with the review recommendation, and the content
    script's element filter and display decisions. The memory service they
    refer to is the `Memory` module. */
module Demo {
  import opened Patterns
  import opened Outcomes
  import Text
  import Seqs
  import Dom
  import Memory
  import Registry

  const ToxicRules: seq<Rule> := [Rule(DemoInsult, 0.3), Rule(DemoBigotry, 0.3)]
  const SpamRules: seq<Rule> := [Rule(DemoSpamPhrase, 0.25), Rule(DemoUrgency, 0.25)]

  /** A two-entry table of one weight scores that weight per match. */
  lemma PairScore(p: Pattern, q: Pattern, w: real, text: string, m: Matcher)
    ensures RawScore([Rule(p, w), Rule(q, w)], text, m)
         == w * TotalMatches([Rule(p, w), Rule(q, w)], text, m) as real
  {
    var t := [Rule(p, w), Rule(q, w)];
    var a, b := |m(p, text)| as real, |m(q, text)| as real;
    assert t[1..] == [Rule(q, w)] && t[1..][1..] == [];
    assert RawScore(t, text, m) == a * w + b * w;
    assert TotalMatches(t, text, m) as real == a + b;
    Distribute(a, b, w);
  }

  lemma Distribute(a: real, b: real, w: real)
    ensures a * w + b * w == w * (a + b)
  {
  }

  /** `calculateToxicityScore`: 0.3 per match of either pattern, capped at 1. */
  function ToxicityScore(text: string, m: Matcher): (r: real)
    ensures r == Min(0.3 * TotalMatches(ToxicRules, text, m) as real, 1.0)
    ensures 0.0 <= r <= 1.0
  {
    PairScore(DemoInsult, DemoBigotry, 0.3, text, m);
    Min(RawScore(ToxicRules, text, m), 1.0)
  }

  /** `calculateSpamScore`: 0.25 per match of either pattern, capped at 1. */
  function SpamScore(text: string, m: Matcher): (r: real)
    ensures r == Min(0.25 * TotalMatches(SpamRules, text, m) as real, 1.0)
    ensures 0.0 <= r <= 1.0
  {
    PairScore(DemoSpamPhrase, DemoUrgency, 0.25, text, m);
    Min(RawScore(SpamRules, text, m), 1.0)
  }

  /** Toxicity crosses 0.4 from the second match on, 0.6 and 0.7 from the
      third. */
  lemma ToxicityThresholds(text: string, m: Matcher)
    ensures ToxicityScore(text, m) > 0.4 <==> TotalMatches(ToxicRules, text, m) >= 2
    ensures ToxicityScore(text, m) > 0.6 <==> TotalMatches(ToxicRules, text, m) >= 3
    ensures ToxicityScore(text, m) > 0.7 <==> TotalMatches(ToxicRules, text, m) >= 3
  {
    var n := TotalMatches(ToxicRules, text, m);
    if n <= 1 {
      assert 0.3 * n as real <= 0.3;
    } else if n == 2 {
      assert 0.3 * n as real == 0.6;
    } else {
      assert 0.3 * n as real >= 0.9;
    }
  }

  /** Spam crosses 0.6 from the third match on. */
  lemma SpamThreshold(text: string, m: Matcher)
    ensures SpamScore(text, m) > 0.6 <==> TotalMatches(SpamRules, text, m) >= 3
  {
    var n := TotalMatches(SpamRules, text, m);
    if n <= 2 {
      assert 0.25 * n as real <= 0.5;
    } else {
      assert 0.25 * n as real >= 0.75;
    }
  }

  // ---------------------------------------------------------------------
  // Sentiment

  datatype Sentiment = Positive | Negative | Neutral

  const PositiveWords: seq<string> := ["good", "great", "love", "awesome"]
  const NegativeWords: seq<string> := ["bad", "hate", "terrible", "awful"]

  /** `text.toLowerCase().split(/\s+/)`. */
  function Words(text: string): seq<string> {
    Text.SplitSpaces(Text.ToLower(text))
  }

  /** Number of words equal to one of `listed`. */
  function CountListed(words: seq<string>, listed: seq<string>): nat {
    Seqs.CountWhere(words, (w: string) => w in listed)
  }

  /** `analyzeSentiment`: the side with strictly more listed words wins; a
      tie, none at all included, is neutral. Words are compared whole, so
      "good!" is not a positive word. */
  function AnalyzeSentiment(text: string): (r: Sentiment)
    ensures r == Positive <==> CountListed(Words(text), PositiveWords) > CountListed(Words(text), NegativeWords)
    ensures r == Negative <==> CountListed(Words(text), NegativeWords) > CountListed(Words(text), PositiveWords)
    ensures r == Neutral <==> CountListed(Words(text), PositiveWords) == CountListed(Words(text), NegativeWords)
  {
    var words := Words(text);
    var positive := |Seqs.Filter(words, (w: string) => w in PositiveWords)|;
    var negative := |Seqs.Filter(words, (w: string) => w in NegativeWords)|;
    Seqs.CountIsFilterLength(words, (w: string) => w in PositiveWords);
    Seqs.CountIsFilterLength(words, (w: string) => w in NegativeWords);
    if positive > negative then Positive
    else if negative > positive then Negative
    else Neutral
  }

  /** A text without any listed word is neutral. */
  lemma NoListedWordsIsNeutral(text: string)
    requires forall i :: 0 <= i < |Words(text)| ==> Words(text)[i] !in PositiveWords && Words(text)[i] !in NegativeWords
    ensures AnalyzeSentiment(text) == Neutral
  {
  }

  // ---------------------------------------------------------------------
  // analyzeContent

  datatype Recommendation = Recommendation(kind: string, message: string, action: string)

  const ReviewRecommendation: Recommendation :=
    Recommendation("warning", "High toxicity detected - review recommended", "flag_for_review")

  datatype DemoAnalysis = DemoAnalysis(
    toxicity: real,
    spam: real,
    sentiment: Sentiment,
    timestamp: int,
    recommendations: seq<Recommendation>)

  /** `analyzeContent`. One review recommendation exactly when toxicity is
      above 0.7; none otherwise. When a memory service is present the
      analysis is stored with the URL's hostname as domain, and a URL that
      does not parse rejects the call; with no service (the constructor
      leaves it `null`) the optional call skips its argument, the URL
      included. `hostname` is `new URL(url).hostname`, `None` when that
      throws. */
  function AnalyzeContent(text: string, url: string, hostname: Option<string>, now: int, m: Matcher,
                          service: Option<Memory.Service>, memoryId: string)
    : (r: (Completion<DemoAnalysis>, Option<Memory.Service>))
    ensures service.None? ==> r.1.None? && r.0.Normal?
    ensures r.0.Normal? ==>
      && r.0.value.toxicity == ToxicityScore(text, m)
      && r.0.value.spam == SpamScore(text, m)
      && r.0.value.sentiment == AnalyzeSentiment(text)
      && (r.0.value.recommendations == [ReviewRecommendation] <==> r.0.value.toxicity > 0.7)
      && (r.0.value.recommendations == [] <==> r.0.value.toxicity <= 0.7)
    ensures service.Some? && hostname.None? ==> r.0.Thrown? && r.1 == service
    ensures service.Some? && hostname.Some? ==>
      r.0.Normal? && r.1.Some? && Memory.Ids(r.1.value.store) == Memory.Ids(service.value.store) + {memoryId}
  {
    var tox := ToxicityScore(text, m);
    var analysis := DemoAnalysis(tox, SpamScore(text, m), AnalyzeSentiment(text), now,
                                 if tox > 0.7 then [ReviewRecommendation] else []);
    if service.None? then (Normal(analysis), None)
    else if hostname.None? then (Thrown("Invalid URL"), service)
    else
      var (stored, _) := Memory.StoreMemory(service.value, memoryId, "content_analysis", "",
                                            Some(Memory.Context(url, Some(hostname.value))), now);
      (Normal(analysis), Some(stored))
  }

  /** Three toxic matches are what it takes to get the review
      recommendation. */
  lemma RecommendationIffThreeMatches(text: string, url: string, now: int, m: Matcher)
    ensures var a := AnalyzeContent(text, url, None, now, m, None, "").0.value;
      |a.recommendations| == 1 <==> TotalMatches(ToxicRules, text, m) >= 3
  {
    ToxicityThresholds(text, m);
  }

  // ---------------------------------------------------------------------
  // Content script

  const ContentTags: seq<string> := ["p", "div", "span", "article", "h1", "h2", "h3"]

  /** `isTextElement`: at least ten characters of trimmed text and a content
      tag. */
  predicate IsTextElement(e: Dom.Element) {
    var text := Text.Trim(Dom.TextContent(e));
    if text == "" || |text| < 10 then false
    else Text.ToLower(e.tag) in ContentTags
  }

  /** An illustration relating two filters the source never applies to the
      same element: an element the extension's content script would
      analyse and whose tag the demo lists is also a demo text element,
      since the demo's bar of ten characters is below the extension's
      fifteen. */
  lemma QualifiedIsTextElement(e: Dom.Element, processed: set<nat>)
    requires Registry.IsValidTextElement(e, processed)
    requires Text.ToLower(e.tag) in ContentTags
    ensures IsTextElement(e)
  {
  }

  /** `findTextElements`: the tree walker visits every element below the
      body in document order and skips (without pruning) those that are not
      text elements. */
  function FindTextElements(body: Dom.Element): (r: seq<Dom.Element>)
    ensures forall i :: 0 <= i < |r| ==> r[i] in Dom.Descendants(body) && IsTextElement(r[i])
    ensures forall i :: 0 <= i < |Dom.Descendants(body)| ==>
      IsTextElement(Dom.Descendants(body)[i]) ==> Dom.Descendants(body)[i] in r
  {
    Seqs.Filter(Dom.Descendants(body), IsTextElement)
  }

  /** The elements the demo's mutation callback analyses: for every added
      element node, `findTextElements(node)` is called, but the method takes
      no parameter and scans the whole body each time. */
  function MutationTargets(body: Dom.Element, added: seq<Dom.Node>): (r: seq<Dom.Element>)
    ensures forall i :: 0 <= i < |r| ==> r[i] in FindTextElements(body)
    ensures forall k :: 0 <= k < |added| && added[k].ElementNode? ==>
      forall i :: 0 <= i < |FindTextElements(body)| ==> FindTextElements(body)[i] in r
    ensures |r| == |FindTextElements(body)| * Seqs.CountWhere(added, IsElementNode)
  {
    OncePerElementNode(FindTextElements(body), added)
  }

  /** `found` once for every element node of `added`. */
  function OncePerElementNode(found: seq<Dom.Element>, added: seq<Dom.Node>): (r: seq<Dom.Element>)
    ensures forall i :: 0 <= i < |r| ==> r[i] in found
    ensures forall k :: 0 <= k < |added| && added[k].ElementNode? ==>
      forall i :: 0 <= i < |found| ==> found[i] in r
    ensures |r| == |found| * Seqs.CountWhere(added, IsElementNode)
  {
    if added == [] then []
    else
      var rest := OncePerElementNode(found, added[1..]);
      var c := Seqs.CountWhere(added[1..], IsElementNode);
      assert forall k :: 1 <= k < |added| ==> added[k] == added[1..][k - 1];
      if added[0].ElementNode? then
        assert Seqs.CountWhere(added, IsElementNode) == 1 + c;
        MulSucc(|found|, c);
        found + rest
      else rest
  }

  lemma MulSucc(a: nat, c: nat)
    ensures a * (1 + c) == a + a * c
  {
  }

  predicate IsElementNode(n: Dom.Node) {
    n.ElementNode?
  }

  /** What the callback evidently means: the text elements under the added
      node only. Like a tree walker rooted at the node, it visits the
      node's descendants and not the node itself. */
  function TextElementsUnder(node: Dom.Element): (r: seq<Dom.Element>)
    ensures forall i :: 0 <= i < |r| ==> r[i] in Dom.Descendants(node) && IsTextElement(r[i])
    ensures forall i :: 0 <= i < |Dom.Descendants(node)| ==>
      IsTextElement(Dom.Descendants(node)[i]) ==> Dom.Descendants(node)[i] in r
  {
    FindTextElements(node)
  }

  /** The text elements an added node brings with it. */
  function OwnTargets(n: Dom.Node): seq<Dom.Element> {
    if n.ElementNode? then TextElementsUnder(n.element) else []
  }

  function IntendedMutationTargets(added: seq<Dom.Node>): (r: seq<Dom.Element>)
    ensures forall i :: 0 <= i < |r| ==> IsTextElement(r[i])
  {
    if added == [] then [] else OwnTargets(added[0]) + IntendedMutationTargets(added[1..])
  }

  /** The intended callback reaches every text element inside every added
      element. */
  lemma {:induction false} IntendedTargetsComplete(added: seq<Dom.Node>, k: nat)
    requires k < |added| && added[k].ElementNode?
    ensures forall e :: e in TextElementsUnder(added[k].element) ==> e in IntendedMutationTargets(added)
    decreases |added|
  {
    var own, rest := OwnTargets(added[0]), IntendedMutationTargets(added[1..]);
    assert IntendedMutationTargets(added) == own + rest;
    if k == 0 {
      assert own == TextElementsUnder(added[k].element);
    } else {
      assert added[1..][k - 1] == added[k];
      IntendedTargetsComplete(added[1..], k - 1);
      assert forall e :: e in rest ==> e in own + rest;
    }
  }

  /** As written, inserting an element with no content at all (an empty
      `div`, say) re-analyses every text element already on the page; the
      intended callback analyses nothing. */
  lemma AddedNodeIsIgnored(body: Dom.Element, node: Dom.Element)
    requires node.children == []
    ensures MutationTargets(body, [Dom.ElementNode(node)]) == FindTextElements(body)
    ensures IntendedMutationTargets([Dom.ElementNode(node)]) == []
  {
    var added := [Dom.ElementNode(node)];
    var found := FindTextElements(body);
    assert added[1..] == [];
    assert OncePerElementNode(found, added) == found + OncePerElementNode(found, []);
    assert found + [] == found;
    assert Dom.Descendants(node) == [];
    assert TextElementsUnder(node) == [];
    assert IntendedMutationTargets(added) == OwnTargets(added[0]) + IntendedMutationTargets([]);
  }

  /** The display decisions of `processAnalysisResult`. */
  datatype Display = Display(overlay: bool, moderate: bool)

  /** An overlay when either score is above 0.6; the moderate outline when
      toxicity is above 0.4. */
  function ProcessAnalysisResult(toxicity: real, spam: real): (d: Display)
    ensures d.overlay <==> toxicity > 0.6 || spam > 0.6
    ensures d.moderate <==> toxicity > 0.4
  {
    Display(toxicity > 0.6 || spam > 0.6, toxicity > 0.4)
  }

  /** An illustration: the demo feeds the display random mock scores, but
      were it fed the demo scorers' results, an overlay would take three
      toxic or three spam matches, and the outline two toxic matches. */
  lemma DisplayFromMatches(text: string, m: Matcher)
    ensures var d := ProcessAnalysisResult(ToxicityScore(text, m), SpamScore(text, m));
      && (d.overlay <==> TotalMatches(ToxicRules, text, m) >= 3 || TotalMatches(SpamRules, text, m) >= 3)
      && (d.moderate <==> TotalMatches(ToxicRules, text, m) >= 2)
  {
    ToxicityThresholds(text, m);
    SpamThreshold(text, m);
  }
}

=== FILE: dom.dfy ===
/** A small document tree: elements with a tag, an identity and a list of
    child nodes that are either text or elements. `textContent` and
    the descendant order that `querySelectorAll` and tree walkers follow
    are those of the DOM (document order, descendants only). */
module Dom {
  import Text

  datatype Node = TextNode(data: string) | ElementNode(element: Element)

  /** `id` is the element's identity (what a `WeakSet` or `Set` of
      elements compares); `tag` is its lower-case local name. */
  datatype Element = Element(tag: string, children: seq<Node>, id: nat)

  /** `node.textContent`: the text of all descendant text nodes, in order. */
  function NodeText(n: Node): string
    decreases n
  {
    match n
    case TextNode(s) => s
    case ElementNode(e) => ChildrenText(e.children)
  }

  function ChildrenText(ns: seq<Node>): string
    decreases ns
  {
    if ns == [] then "" else NodeText(ns[0]) + ChildrenText(ns[1..])
  }

  function TextContent(e: Element): string {
    ChildrenText(e.children)
  }

  /** All elements strictly below `e`, in document (pre-)order. */
  function Descendants(e: Element): seq<Element> {
    ChildrenDescendants(e.children)
  }

  /** The node itself when it is an element, then its descendants. */
  function NodeElements(n: Node): seq<Element>
    decreases n
  {
    match n
    case TextNode(_) => []
    case ElementNode(e) => [e] + ChildrenDescendants(e.children)
  }

  function ChildrenDescendants(ns: seq<Node>): seq<Element>
    decreases ns
  {
    if ns == [] then [] else NodeElements(ns[0]) + ChildrenDescendants(ns[1..])
  }

  /** The summed trimmed length of the element's own text-node children
      (text of nested elements is not counted). */
  function DirectTextLength(ns: seq<Node>): nat {
    if ns == [] then 0
    else
      (match ns[0]
       case TextNode(s) => |Text.Trim(s)|
       case ElementNode(_) => 0)
      + DirectTextLength(ns[1..])
  }

  /** An element without any non-blank text child of its own has no direct
      text at all. */
  lemma {:induction false} NoOwnTextNoDirectLength(ns: seq<Node>)
    requires forall i :: 0 <= i < |ns| ==> ns[i].TextNode? ==> Text.AllSpace(ns[i].data)
    ensures DirectTextLength(ns) == 0
  {
    if ns != [] {
      NoOwnTextNoDirectLength(ns[1..]);
    }
  }
}

=== FILE: fallback.dfy ===
/** `getFallbackAnalysis` and `getDefaultAnalysis` of background.js: the
    weighted-pattern classifier used whenever the provider path throws, and
    the zero result for texts too short to analyse. */
module Fallback {
  import opened Analysis
  import opened Patterns
  import Text

  const ToxicRules: seq<Rule> :=
    [Rule(FallbackInsult, 0.8), Rule(FallbackBigotry, 0.9), Rule(FallbackProfanity, 0.3)]
  const SpamRules: seq<Rule> :=
    [Rule(FallbackSpamPhrase, 0.7), Rule(FallbackUrgency, 0.6)]

  const ToxicHeading: string := "toxic language: "
  const SpamHeading: string := "spam indicators: "

  /** Threshold above which either unclamped sum flags the text. */
  const FlagThreshold: real := 0.6

  /** The unclamped toxicity sum over the three toxic patterns. */
  function RawToxicity(text: string, m: Matcher): (r: real)
    ensures r >= 0.0
    ensures r == 0.8 * Hits(FallbackInsult, text, m) as real + 0.9 * Hits(FallbackBigotry, text, m) as real
                 + 0.3 * Hits(FallbackProfanity, text, m) as real
  {
    var t := ToxicRules;
    assert t[1..][1..] == [Rule(FallbackProfanity, 0.3)];
    assert RawScore(t[1..][1..], text, m) == Hits(FallbackProfanity, text, m) as real * 0.3;
    assert t[1..] == [Rule(FallbackBigotry, 0.9), Rule(FallbackProfanity, 0.3)];
    assert RawScore(t[1..], text, m)
      == Hits(FallbackBigotry, text, m) as real * 0.9 + Hits(FallbackProfanity, text, m) as real * 0.3;
    RawScore(t, text, m)
  }

  /** The unclamped spam sum over the two spam patterns. */
  function RawSpam(text: string, m: Matcher): (r: real)
    ensures r >= 0.0
    ensures r == 0.7 * Hits(FallbackSpamPhrase, text, m) as real + 0.6 * Hits(FallbackUrgency, text, m) as real
  {
    var t := SpamRules;
    assert t[1..] == [Rule(FallbackUrgency, 0.6)];
    assert RawScore(t[1..], text, m) == Hits(FallbackUrgency, text, m) as real * 0.6;
    RawScore(t, text, m)
  }

  function FlagDecision(tox: real, spam: real): bool {
    tox > FlagThreshold || spam > FlagThreshold
  }

  /** The fallback record. Flagging and the content type are decided on the
      unclamped sums; the reported scores are clamped to 1 and hate speech
      is 0.8 of the toxicity sum, so it never exceeds the reported
      toxicity. Issues list the toxic patterns first, then the spam ones. */
  function FallbackAnalysis(text: string, errorReason: string, now: int, m: Matcher): (a: Analysis)
    ensures ScoresInRange(a)
    ensures a.hateSpeech <= a.toxicity
    ensures a.hateSpeech == Min(RawToxicity(text, m) * 0.8, 1.0)
    ensures a.toxicity == Min(RawToxicity(text, m), 1.0)
    ensures a.spam == Min(RawSpam(text, m), 1.0)
    ensures a.shouldFlag <==> RawToxicity(text, m) > 0.6 || RawSpam(text, m) > 0.6
    ensures !a.shouldFlag ==> a.contentType == "normal"
    ensures a.shouldFlag ==>
      a.contentType == (if RawToxicity(text, m) > RawSpam(text, m) then "toxic" else "spam")
    ensures a.confidence == 0.8 && a.provider == Fallback && a.timestamp == now
    ensures a.originalText == Text.Prefix(text, 100)
    ensures a.primaryIssues == FallbackIssues(text, m)
  {
    var tox := RawToxicity(text, m);
    var spam := RawSpam(text, m);
    var flag := FlagDecision(tox, spam);
    var issues := FallbackIssues(text, m);
    Analysis(
      toxicity := Min(tox, 1.0),
      spam := Min(spam, 1.0),
      hateSpeech := Min(tox * 0.8, 1.0),
      shouldFlag := flag,
      confidence := 0.8,
      primaryIssues := issues,
      reasoning := "Pattern analysis used (" + errorReason + "). "
        + (if flag then "Flagged based on detected patterns." else "No concerning patterns detected."),
      contentType := if flag then (if tox > spam then "toxic" else "spam") else "normal",
      provider := Fallback,
      timestamp := now,
      originalText := Text.Prefix(text, 100))
  }

  /** The issue lines: one per matching toxic pattern, then one per
      matching spam pattern. */
  function FallbackIssues(text: string, m: Matcher): (r: seq<string>)
    ensures |r| == MatchingRules(ToxicRules, text, m) + MatchingRules(SpamRules, text, m) <= 5
    ensures forall i :: 0 <= i < |r| ==>
      if i < MatchingRules(ToxicRules, text, m) then ToxicHeading <= r[i] else SpamHeading <= r[i]
    ensures TwoTierLines(r, ToxicRules, ToxicHeading, SpamRules, SpamHeading, text, m)
  {
    TwoTierIssues(ToxicRules, ToxicHeading, SpamRules, SpamHeading, text, m);
    Issues(ToxicRules, ToxicHeading, text, m) + Issues(SpamRules, SpamHeading, text, m)
  }

  /** Clamping at 1 never crosses the 0.6 threshold, so the fallback flags
      exactly when one of the scores it reports is above 0.6. */
  lemma FlagAgreesWithReportedScores(text: string, errorReason: string, now: int, m: Matcher)
    ensures var a := FallbackAnalysis(text, errorReason, now, m);
      a.shouldFlag <==> a.toxicity > 0.6 || a.spam > 0.6
  {
  }

  /** Two profanity hits sum to exactly 0.6, which does not flag, while a
      single insult (0.8) does. */
  lemma TwoProfanitiesDoNotFlag(text: string, errorReason: string, now: int, m: Matcher)
    requires |m(FallbackProfanity, text)| == 2
    requires m(FallbackInsult, text) == [] && m(FallbackBigotry, text) == []
    requires m(FallbackSpamPhrase, text) == [] && m(FallbackUrgency, text) == []
    ensures !FallbackAnalysis(text, errorReason, now, m).shouldFlag
    ensures FallbackAnalysis(text, errorReason, now, m).contentType == "normal"
  {
  }

  lemma OneInsultFlagsAsToxic(text: string, errorReason: string, now: int, m: Matcher)
    requires |m(FallbackInsult, text)| == 1
    requires m(FallbackBigotry, text) == [] && m(FallbackProfanity, text) == []
    requires m(FallbackSpamPhrase, text) == [] && m(FallbackUrgency, text) == []
    ensures FallbackAnalysis(text, errorReason, now, m).shouldFlag
    ensures FallbackAnalysis(text, errorReason, now, m).contentType == "toxic"
    ensures FallbackAnalysis(text, errorReason, now, m).primaryIssues
              == [ToxicHeading + Text.Join(m(FallbackInsult, text), ", ")]
  {
  }

  /** One urgency cue scores 0.6 for spam and does not flag either. */
  lemma OneUrgencyDoesNotFlag(text: string, errorReason: string, now: int, m: Matcher)
    requires |m(FallbackUrgency, text)| == 1
    requires m(FallbackInsult, text) == [] && m(FallbackBigotry, text) == []
    requires m(FallbackProfanity, text) == [] && m(FallbackSpamPhrase, text) == []
    ensures !FallbackAnalysis(text, errorReason, now, m).shouldFlag
    ensures FallbackAnalysis(text, errorReason, now, m).spam == 0.6
  {
  }

  /** The record for a text that is not sent to the provider: all zero,
      never flagged, the text kept whole. */
  function DefaultAnalysis(text: string, reason: string, now: int): (a: Analysis)
    ensures ScoresInRange(a)
    ensures a.toxicity == 0.0 && a.spam == 0.0 && a.hateSpeech == 0.0
    ensures !a.shouldFlag && a.confidence == 0.9 && a.primaryIssues == []
    ensures a.provider == Default && a.contentType == "normal"
    ensures a.reasoning == "Skipped analysis: " + reason
    ensures a.originalText == text
  {
    Analysis(0.0, 0.0, 0.0, false, 0.9, [], "Skipped analysis: " + reason, "normal",
             Default, now, text)
  }
}

=== FILE: memory.dfy ===
/** `MemoryService` of demo.js: an insertion-ordered store of entries keyed
    by id, queried by type and domain, newest first, and a table of
    learning-pattern counters keyed by `type_domain`.

    The store is a `Map`, which iterates in insertion order and replaces a
    value in place; it is a sequence here. The clock and the random part of
    the id are parameters. */
module Memory {
  import opened Outcomes
  import Seqs

  /** The `context` of an entry: where the content was seen. */
  datatype Context = Context(url: string, domain: Option<string>)

  /** A stored entry: the fresh id, the caller's `type`, `content` and
      `context`, and the time of storing. */
  datatype Entry = Entry(id: string, kind: string, content: string, context: Option<Context>, timestamp: int)

  datatype PatternStats = PatternStats(count: nat, lastSeen: int)

  datatype Service = Service(store: seq<Entry>, patterns: map<string, PatternStats>)

  /** A query; a missing, empty or zero field is "not given". */
  datatype Query = Query(kind: Option<string>, domain: Option<string>, limit: Option<int>)

  function Empty(): (s: Service)
    ensures UniqueIds(s.store) && s.patterns == map[]
  {
    Service([], map[])
  }

  function Ids(store: seq<Entry>): set<string> {
    set e | e in store :: e.id
  }

  predicate UniqueIds(store: seq<Entry>) {
    forall i, j :: 0 <= i < j < |store| ==> store[i].id != store[j].id
  }

  /** Position of the entry stored under `id`, if any. */
  function IndexOfId(store: seq<Entry>, id: string): (r: Option<nat>)
    ensures r.None? ==> forall i :: 0 <= i < |store| ==> store[i].id != id
    ensures r.Some? ==> r.value < |store| && store[r.value].id == id
  {
    if store == [] then None
    else if store[0].id == id then Some(0)
    else
      var rest := IndexOfId(store[1..], id);
      if rest.None? then None else Some(rest.value + 1)
  }

  /** `Map.prototype.set`: an existing id keeps its position and gets the
      new entry; a new id is appended. */
  function Put(store: seq<Entry>, e: Entry): (r: seq<Entry>)
    ensures |r| == if IndexOfId(store, e.id).Some? then |store| else |store| + 1
    ensures forall i :: 0 <= i < |r| && r[i] != e ==> i < |store| && r[i] == store[i]
    ensures forall i :: 0 <= i < |store| && store[i].id != e.id ==> r[i] == store[i]
    ensures exists i :: 0 <= i < |r| && r[i] == e
  {
    var k := IndexOfId(store, e.id);
    if k.Some? then
      var r := store[k.value := e];
      assert r[k.value] == e;
      r
    else
      var r := store + [e];
      assert r[|store|] == e;
      r
  }

  /** Storing adds exactly the new id and keeps the ids distinct. */
  lemma PutIds(store: seq<Entry>, e: Entry)
    ensures Ids(Put(store, e)) == Ids(store) + {e.id}
    ensures UniqueIds(store) ==> UniqueIds(Put(store, e))
  {
    var r := Put(store, e);
    var k := IndexOfId(store, e.id);
    forall x | x in Ids(r) ensures x in Ids(store) + {e.id} {
      var y :| y in r && y.id == x;
      var i :| 0 <= i < |r| && r[i] == y;
      if y != e {
        assert store[i] in store;
      }
    }
    forall x | x in Ids(store) + {e.id} ensures x in Ids(r) {
      if x == e.id {
        var i :| 0 <= i < |r| && r[i] == e;
        assert r[i] in r;
      } else {
        var y :| y in store && y.id == x;
        var i :| 0 <= i < |store| && store[i] == y;
        assert r[i] in r;
      }
    }
  }

  // ---------------------------------------------------------------------
  // Ordering

  predicate NewestFirst(s: seq<Entry>) {
    forall i, j :: 0 <= i < j < |s| ==> s[i].timestamp >= s[j].timestamp
  }

  /** Inserts `x` before the first entry that is not newer, so that among
      equal timestamps the earlier position comes first. */
  function InsertByRecency(x: Entry, t: seq<Entry>): (r: seq<Entry>)
    requires NewestFirst(t)
    ensures NewestFirst(r)
    ensures multiset(r) == multiset(t) + multiset{x}
    ensures |r| == |t| + 1
    ensures r[0] == x || (t != [] && r[0] == t[0])
  {
    if t == [] then [x]
    else if t[0].timestamp <= x.timestamp then
      PrependNewest(x, t);
      [x] + t
    else
      var rest := InsertByRecency(x, t[1..]);
      PrependNewest(t[0], rest);
      assert t == [t[0]] + t[1..];
      [t[0]] + rest
  }

  /** An entry at least as new as the head of a newest-first list can go
      in front of it. */
  lemma PrependNewest(h: Entry, s: seq<Entry>)
    requires NewestFirst(s) && (s == [] || s[0].timestamp <= h.timestamp)
    ensures NewestFirst([h] + s)
  {
    var r := [h] + s;
    forall i, j | 0 <= i < j < |r| ensures r[i].timestamp >= r[j].timestamp {
      assert r[j] == s[j - 1];
      if i > 0 {
        assert r[i] == s[i - 1];
      } else if j > 1 {
        assert s[0].timestamp >= s[j - 1].timestamp;
      }
    }
  }

  /** `.sort((a, b) => b.timestamp - a.timestamp)`: the entries newest
      first; the sort is stable. */
  function SortByRecency(s: seq<Entry>): (r: seq<Entry>)
    ensures NewestFirst(r)
    ensures multiset(r) == multiset(s)
    ensures |r| == |s|
  {
    if s == [] then []
    else
      assert s == [s[0]] + s[1..];
      InsertByRecency(s[0], SortByRecency(s[1..]))
  }

  // ---------------------------------------------------------------------
  // Query

  /** `entry.context?.domain`. */
  function EntryDomain(e: Entry): Option<string> {
    if e.context.Some? then e.context.value.domain else None
  }

  /** `matchesQuery`: a type or domain given in the query must be equal to
      the entry's; an empty string in the query is "not given". */
  predicate Matches(e: Entry, q: Query) {
    if q.kind.Some? && q.kind.value != "" && e.kind != q.kind.value then false
    else if q.domain.Some? && q.domain.value != "" && EntryDomain(e) != Some(q.domain.value) then false
    else true
  }

  /** `query.limit || 10`. */
  function LimitOf(q: Query): int {
    if q.limit.Some? && q.limit.value != 0 then q.limit.value else 10
  }

  function Matching(store: seq<Entry>, q: Query): seq<Entry> {
    Seqs.Filter(store, (e: Entry) => Matches(e, q))
  }

  function Min(x: int, y: int): int {
    if x <= y then x else y
  }

  /** `retrieveMemory`: the matching entries, newest first, cut to the
      limit with `slice(0, limit)` (a negative limit drops that many from
      the end). */
  function Retrieve(svc: Service, q: Query): (r: seq<Entry>)
    ensures forall i :: 0 <= i < |r| ==> Matches(r[i], q) && r[i] in svc.store
    ensures NewestFirst(r)
    ensures LimitOf(q) >= 0 ==> |r| == Min(LimitOf(q), |Matching(svc.store, q)|)
    ensures multiset(r) <= multiset(Matching(svc.store, q))
    ensures forall e :: e in svc.store && Matches(e, q) && e !in r ==>
      forall i :: 0 <= i < |r| ==> e.timestamp <= r[i].timestamp
  {
    var found := Matching(svc.store, q);
    var sorted := SortByRecency(found);
    var r := Seqs.SliceTo(sorted, LimitOf(q));
    TopOfSorted(svc.store, q, sorted, r);
    r
  }

  /** A leading slice of the matches sorted newest first holds matching
      entries of the store, newest first, and whatever it leaves out of the
      matches is no newer than anything it keeps. */
  lemma TopOfSorted(store: seq<Entry>, q: Query, sorted: seq<Entry>, r: seq<Entry>)
    requires multiset(sorted) == multiset(Matching(store, q)) && NewestFirst(sorted)
    requires |r| <= |sorted| && r == sorted[..|r|]
    ensures forall i :: 0 <= i < |r| ==> Matches(r[i], q) && r[i] in store
    ensures multiset(r) <= multiset(Matching(store, q))
    ensures NewestFirst(r)
    ensures forall e :: e in store && Matches(e, q) && e !in r ==>
      forall i :: 0 <= i < |r| ==> e.timestamp <= r[i].timestamp
  {
    var found := Matching(store, q);
    forall e | e in store && Matches(e, q) ensures e in found {
      var k :| 0 <= k < |store| && store[k] == e;
    }
    TopOfReordering(found, sorted, |r|);
    forall i | 0 <= i < |r| ensures Matches(r[i], q) && r[i] in store {
      assert r[i] == sorted[i];
      var k :| 0 <= k < |found| && found[k] == r[i];
    }
  }

  /** The leading entries of a newest-first list, and whatever it leaves
      out, compared with what it keeps. */
  lemma TopOfReordering(s: seq<Entry>, sorted: seq<Entry>, n: nat)
    requires multiset(sorted) == multiset(s) && NewestFirst(sorted) && n <= |sorted|
    ensures forall e :: e in s && e !in sorted[..n] ==>
      forall i :: 0 <= i < n ==> e.timestamp <= sorted[i].timestamp
    ensures forall i :: 0 <= i < n ==> sorted[i] in s
    ensures NewestFirst(sorted[..n])
    ensures multiset(sorted[..n]) <= multiset(s)
  {
    assert sorted == sorted[..n] + sorted[n..];
    forall e, i | e in s && e !in sorted[..n] && 0 <= i < n
      ensures e.timestamp <= sorted[i].timestamp
    {
      assert e in multiset(sorted);
      var j :| 0 <= j < |sorted| && sorted[j] == e;
    }
    forall i | 0 <= i < n ensures sorted[i] in s {
      assert sorted[i] in multiset(sorted);
    }
  }

  /** The empty query keeps every entry: it returns the ten newest. */
  lemma EmptyQueryMatchesAll(svc: Service)
    ensures Matching(svc.store, Query(None, None, None)) == svc.store
    ensures |Retrieve(svc, Query(None, None, None))| == Min(10, |svc.store|)
  {
    FilterAll(svc.store, (e: Entry) => Matches(e, Query(None, None, None)));
  }

  lemma {:induction false} FilterAll(s: seq<Entry>, p: Entry -> bool)
    requires forall i :: 0 <= i < |s| ==> p(s[i])
    ensures Seqs.Filter(s, p) == s
  {
    if s != [] {
      FilterAll(s[1..], p);
    }
  }

  // ---------------------------------------------------------------------
  // Learning patterns

  /** `context?.domain || 'unknown'`. */
  function DomainOrUnknown(e: Entry): string {
    var d := EntryDomain(e);
    if d.Some? && d.value != "" then d.value else "unknown"
  }

  function PatternKey(e: Entry): string {
    e.kind + "_" + DomainOrUnknown(e)
  }

  /** `updateLearningPatterns`: the entry's key is created at zero if new,
      then counted once and stamped with the time; no other key changes. */
  function UpdateLearningPatterns(patterns: map<string, PatternStats>, e: Entry, now: int)
    : (r: map<string, PatternStats>)
    ensures r.Keys == patterns.Keys + {PatternKey(e)}
    ensures r[PatternKey(e)].count == (if PatternKey(e) in patterns then patterns[PatternKey(e)].count else 0) + 1
    ensures r[PatternKey(e)].lastSeen == now
    ensures forall k :: k in patterns && k != PatternKey(e) ==> r[k] == patterns[k]
  {
    var key := PatternKey(e);
    var before := if key in patterns then patterns[key] else PatternStats(0, 0);
    patterns[key := PatternStats(before.count + 1, now)]
  }

  /** The key joins type and domain with `_`, so it does not tell the two
      apart when either contains an underscore. */
  lemma PatternKeysCanCollide(now: int)
    ensures PatternKey(Entry("a", "content_analysis", "", None, now))
         == PatternKey(Entry("b", "content", "", Some(Context("", Some("analysis_unknown"))), now))
  {
  }

  // ---------------------------------------------------------------------
  // Store and insights

  /** `storeMemory` with the generated id and the clock passed in: the entry
      goes into the store under the id, its pattern is counted, and the id
      is returned. */
  function StoreMemory(svc: Service, id: string, kind: string, content: string,
                       context: Option<Context>, now: int): (r: (Service, string))
    ensures r.1 == id
    ensures Ids(r.0.store) == Ids(svc.store) + {id}
    ensures Entry(id, kind, content, context, now) in r.0.store
    ensures forall x :: x in svc.store && x.id != id ==> x in r.0.store
    ensures forall x :: x in r.0.store ==> x == Entry(id, kind, content, context, now) || x in svc.store
    ensures UniqueIds(svc.store) ==> UniqueIds(r.0.store)
    ensures r.0.patterns == UpdateLearningPatterns(svc.patterns, Entry(id, kind, content, context, now), now)
    ensures var key := PatternKey(Entry(id, kind, content, context, now));
      && r.0.patterns.Keys == svc.patterns.Keys + {key}
      && r.0.patterns[key] == PatternStats((if key in svc.patterns then svc.patterns[key].count else 0) + 1, now)
  {
    var e := Entry(id, kind, content, context, now);
    var store := Put(svc.store, e);
    PutIds(svc.store, e);
    var k :| 0 <= k < |store| && store[k] == e;
    forall x | x in svc.store && x.id != id ensures x in store {
      var i :| 0 <= i < |svc.store| && svc.store[i] == x;
      assert store[i] == x;
    }
    forall x | x in store ensures x == e || x in svc.store {
      var i :| 0 <= i < |store| && store[i] == x;
      if x != e {
        assert svc.store[i] == x;
      }
    }
    (Service(store, UpdateLearningPatterns(svc.patterns, e, now)), id)
  }

  /** An entry stored later than everything before it is the first answer
      to a query it matches. */
  lemma StoredThenRetrievedFirst(svc: Service, id: string, kind: string, content: string,
                                 context: Option<Context>, now: int, q: Query)
    requires forall x :: x in svc.store ==> x.timestamp < now
    requires Matches(Entry(id, kind, content, context, now), q) && LimitOf(q) > 0
    ensures var r := Retrieve(StoreMemory(svc, id, kind, content, context, now).0, q);
      r != [] && r[0] == Entry(id, kind, content, context, now)
  {
    var e := Entry(id, kind, content, context, now);
    var svc2 := StoreMemory(svc, id, kind, content, context, now).0;
    NewestMatchFirst(svc2, e, q);
  }

  /** The strictly newest entry of a store is the first answer to a query
      it matches. */
  lemma NewestMatchFirst(svc: Service, e: Entry, q: Query)
    requires e in svc.store && Matches(e, q) && LimitOf(q) > 0
    requires forall x :: x in svc.store ==> x == e || x.timestamp < e.timestamp
    ensures var r := Retrieve(svc, q); r != [] && r[0] == e
  {
    var r := Retrieve(svc, q);
    var k :| 0 <= k < |svc.store| && svc.store[k] == e;
    assert e in Matching(svc.store, q);
    assert r != [];
    var x := r[0];
    if e in r {
      var j :| 0 <= j < |r| && r[j] == e;
      assert x.timestamp >= e.timestamp;
    }
    assert x in svc.store;
  }

  datatype Insights = Insights(totalMemories: nat, patterns: nat, recentActivity: seq<Entry>)

  /** `getInsights`: the sizes of the store and of the pattern table, and
      the five newest entries. */
  function GetInsights(svc: Service): (r: Insights)
    ensures r.totalMemories == |svc.store| && r.patterns == |svc.patterns.Keys|
    ensures |r.recentActivity| == Min(5, |svc.store|)
    ensures NewestFirst(r.recentActivity)
    ensures forall i :: 0 <= i < |r.recentActivity| ==> r.recentActivity[i] in svc.store
    ensures multiset(r.recentActivity) <= multiset(svc.store)
    ensures forall e :: e in svc.store && e !in r.recentActivity ==>
      forall i :: 0 <= i < |r.recentActivity| ==> e.timestamp <= r.recentActivity[i].timestamp
  {
    var sorted := SortByRecency(svc.store);
    var recent := Seqs.SliceTo(sorted, 5);
    TopOfReordering(svc.store, sorted, |recent|);
    assert recent == sorted[..|recent|];
    Insights(|svc.store|, |svc.patterns.Keys|, recent)
  }
}

=== FILE: outcomes.dfy ===
/** Optional values and JavaScript completions. */
module Outcomes {

  /** A value that may be absent (`undefined` / `null` in the source). */
  datatype Option<+T> = None | Some(value: T)
  {
    function GetOr(default: T): T {
      if Some? then value else default
    }
  }

  /** How a JavaScript call ends: with a value, or by throwing an `Error`
      whose `message` is kept. */
  datatype Completion<+T> = Normal(value: T) | Thrown(message: string)
}

=== FILE: patterns.dfy ===
/** Weighted pattern tables, the building block of every scorer in the
    extension. Each scorer runs `text.match(/.../gi)` for every entry of a
    table and adds `matches.length * weight`; an entry with matches also
    contributes one human-readable issue line.

    No regular-expression engine is modelled: a `Matcher` returns, for a
    pattern and a text, the list of matched substrings, with `[]` standing
    for the `null` that `String.prototype.match` returns when nothing
    matches. */
module Patterns {
  import Text

  /** One constructor per regular-expression literal of the scorers. */
  datatype Pattern =
    // background.js, getFallbackAnalysis
    | FallbackInsult      // hate|stupid|idiot|kill|die|dumb|moron
    | FallbackBigotry     // racist|sexist|homophobic|nazi|terrorist
    | FallbackProfanity   // four common swear words
    | FallbackSpamPhrase  // click here|free money|buy now|limited time
    | FallbackUrgency     // urgent|guaranteed|act now|don't miss
    // content/content.js, getQuickAnalysis
    | QuickViolence       // kill|die|murder|hate|racist|nazi|terrorist|kys
    | QuickProfanity      // swear words, with `*` masking allowed
    | QuickInsult         // stupid|idiot|moron|retard|loser
    | QuickMild           // dumb|annoying|ugly|weird|gross
    | QuickSpamPhrase     // click here|buy now|free money|limited time|act now
    | QuickUrgency        // urgent|guaranteed|don't miss|exclusive offer
    // demo.js
    | DemoInsult          // hate|stupid|idiot|kill
    | DemoBigotry         // racist|sexist|homophobic
    | DemoSpamPhrase      // click here|free money|buy now
    | DemoUrgency         // urgent|guaranteed|limited time

  /** The matches of a pattern in a text (`text.match(pattern) || []`). */
  type Matcher = (Pattern, string) -> seq<string>

  datatype Rule = Rule(pattern: Pattern, weight: real)

  /** `(text.match(p) || []).length`. */
  function Hits(p: Pattern, text: string, m: Matcher): nat {
    |m(p, text)|
  }

  /** `Math.min(x, y)`, with which every scorer caps its sums at 1. */
  function Min(x: real, y: real): real {
    if x <= y then x else y
  }

  predicate PositiveWeights(table: seq<Rule>) {
    forall i :: 0 <= i < |table| ==> table[i].weight > 0.0
  }

  /** Total number of matches over all entries of a table. */
  function TotalMatches(table: seq<Rule>, text: string, m: Matcher): nat {
    if table == [] then 0
    else |m(table[0].pattern, text)| + TotalMatches(table[1..], text, m)
  }

  /** The unclamped score `Σ matches.length * weight`. */
  function RawScore(table: seq<Rule>, text: string, m: Matcher): (r: real)
    ensures PositiveWeights(table) ==> r >= 0.0
    ensures PositiveWeights(table) ==> (r == 0.0 <==> TotalMatches(table, text, m) == 0)
  {
    if table == [] then 0.0
    else (|m(table[0].pattern, text)| as real) * table[0].weight + RawScore(table[1..], text, m)
  }

  /** Number of entries that matched at least once. */
  function MatchingRules(table: seq<Rule>, text: string, m: Matcher): (n: nat)
    ensures n <= |table|
    ensures n <= TotalMatches(table, text, m)
  {
    if table == [] then 0
    else (if m(table[0].pattern, text) != [] then 1 else 0) + MatchingRules(table[1..], text, m)
  }

  /** The positions of the entries of `table` that matched at least once,
      in increasing order (see `MatchedPositionsExactly`). */
  function MatchedPositions(table: seq<Rule>, text: string, m: Matcher): (ks: seq<nat>)
    ensures forall i :: 0 <= i < |ks| ==> ks[i] < |table|
  {
    if table == [] then []
    else
      var rest := MatchedPositions(table[1..], text, m);
      var shifted := seq(|rest|, i requires 0 <= i < |rest| => rest[i] + 1);
      if m(table[0].pattern, text) != [] then [0] + shifted else shifted
  }

  /** The matched positions are strictly increasing and are exactly the
      entries with at least one match. */
  lemma {:induction false} MatchedPositionsExactly(table: seq<Rule>, text: string, m: Matcher)
    ensures var ks := MatchedPositions(table, text, m);
      && (forall i, j :: 0 <= i < j < |ks| ==> ks[i] < ks[j])
      && (forall k :: 0 <= k < |table| ==> (k in ks <==> m(table[k].pattern, text) != []))
  {
    if table != [] {
      var rest := MatchedPositions(table[1..], text, m);
      MatchedPositionsExactly(table[1..], text, m);
      var shifted := seq(|rest|, i requires 0 <= i < |rest| => rest[i] + 1);
      ShiftPositions(table, text, m, rest, shifted);
      assert MatchedPositions(table, text, m) == if m(table[0].pattern, text) != [] then [0] + shifted else shifted;
    }
  }

  /** The positions matched in `table[1..]`, moved up by one, are the
      positions matched in `table` after the first. */
  lemma ShiftPositions(table: seq<Rule>, text: string, m: Matcher, rest: seq<nat>, shifted: seq<nat>)
    requires table != []
    requires forall i, j :: 0 <= i < j < |rest| ==> rest[i] < rest[j]
    requires forall i :: 0 <= i < |rest| ==> rest[i] < |table| - 1
    requires forall k :: 0 <= k < |table| - 1 ==> (k in rest <==> m(table[1..][k].pattern, text) != [])
    requires |shifted| == |rest| && forall i :: 0 <= i < |rest| ==> shifted[i] == rest[i] + 1
    ensures forall i, j :: 0 <= i < j < |shifted| ==> 0 < shifted[i] < shifted[j]
    ensures forall i :: 0 <= i < |shifted| ==> 0 < shifted[i] < |table|
    ensures forall k :: 1 <= k < |table| ==> (k in shifted <==> m(table[k].pattern, text) != [])
  {
    forall k | 1 <= k < |table| ensures k in shifted <==> m(table[k].pattern, text) != [] {
      assert table[k] == table[1..][k - 1];
      if k in shifted {
        var i :| 0 <= i < |shifted| && shifted[i] == k;
        assert rest[i] == k - 1;
      }
      if k - 1 in rest {
        var i :| 0 <= i < |rest| && rest[i] == k - 1;
        assert shifted[i] == k;
      }
    }
  }

  /** The issue line of entry `k`: the heading followed by its matches
      joined with `", "`. */
  function Line(table: seq<Rule>, heading: string, text: string, m: Matcher, k: nat): string
    requires k < |table|
  {
    heading + Text.Join(m(table[k].pattern, text), ", ")
  }

  /** One line `heading + matches.join(', ')` per entry with matches, in table
      order. */
  function Issues(table: seq<Rule>, heading: string, text: string, m: Matcher): (r: seq<string>)
    ensures |r| == MatchingRules(table, text, m)
    ensures forall i :: 0 <= i < |r| ==> heading <= r[i]
    ensures ListsLines(r, table, heading, text, m)
  {
    if table == [] then []
    else
      var matches := m(table[0].pattern, text);
      var own := if matches != [] then [heading + Text.Join(matches, ", ")] else [];
      var rest := Issues(table[1..], heading, text, m);
      IssuesStep(table, heading, text, m, own, rest);
      own + rest
  }

  /** The lines of the first entry and of the remaining ones together are
      the lines of the whole table. */
  lemma IssuesStep(table: seq<Rule>, heading: string, text: string, m: Matcher,
                   own: seq<string>, rest: seq<string>)
    requires table != []
    requires own == if m(table[0].pattern, text) != [] then [heading + Text.Join(m(table[0].pattern, text), ", ")] else []
    requires |rest| == |MatchedPositions(table[1..], text, m)|
    requires forall i :: 0 <= i < |rest| ==>
      rest[i] == Line(table[1..], heading, text, m, MatchedPositions(table[1..], text, m)[i])
    ensures |own + rest| == |MatchedPositions(table, text, m)|
    ensures forall i :: 0 <= i < |own + rest| ==>
      (own + rest)[i] == Line(table, heading, text, m, MatchedPositions(table, text, m)[i])
  {
    var ks, kr := MatchedPositions(table, text, m), MatchedPositions(table[1..], text, m);
    var shifted := seq(|kr|, i requires 0 <= i < |kr| => kr[i] + 1);
    assert ks == (if m(table[0].pattern, text) != [] then [0] else []) + shifted;
    LinesShift(table, heading, text, m, own, rest, ks, kr);
  }

  lemma LinesShift(table: seq<Rule>, heading: string, text: string, m: Matcher,
                   own: seq<string>, rest: seq<string>, ks: seq<nat>, kr: seq<nat>)
    requires table != []
    requires forall i :: 0 <= i < |kr| ==> kr[i] < |table| - 1
    requires ks == (if m(table[0].pattern, text) != [] then [0] else [])
                   + seq(|kr|, i requires 0 <= i < |kr| => kr[i] + 1)
    requires own == if m(table[0].pattern, text) != [] then [Line(table, heading, text, m, 0)] else []
    requires |rest| == |kr| && forall i :: 0 <= i < |rest| ==> rest[i] == Line(table[1..], heading, text, m, kr[i])
    ensures |own + rest| == |ks|
    ensures forall i :: 0 <= i < |ks| ==> ks[i] < |table| && (own + rest)[i] == Line(table, heading, text, m, ks[i])
  {
    var r := own + rest;
    forall i | 0 <= i < |ks| ensures ks[i] < |table| && r[i] == Line(table, heading, text, m, ks[i]) {
      if i >= |own| {
        var j := i - |own|;
        assert r[i] == rest[j] && ks[i] == kr[j] + 1;
        assert table[kr[j] + 1] == table[1..][kr[j]];
      }
    }
  }

  /** Two tables' issue lines one after the other: the first table's
      lines carry its heading, the rest the second heading. */
  lemma TwoTierIssues(first: seq<Rule>, h1: string, second: seq<Rule>, h2: string, text: string, m: Matcher)
    ensures var r := Issues(first, h1, text, m) + Issues(second, h2, text, m);
      && |r| == MatchingRules(first, text, m) + MatchingRules(second, text, m)
      && forall i :: 0 <= i < |r| ==>
           if i < MatchingRules(first, text, m) then h1 <= r[i] else h2 <= r[i]
    ensures TwoTierLines(Issues(first, h1, text, m) + Issues(second, h2, text, m), first, h1, second, h2, text, m)
  {
    var a, b := Issues(first, h1, text, m), Issues(second, h2, text, m);
    ConcatHeadings(a, h1, b, h2);
    ConcatLines(a, b, first, h1, second, h2, text, m);
  }

  lemma ConcatHeadings(a: seq<string>, h1: string, b: seq<string>, h2: string)
    requires forall i :: 0 <= i < |a| ==> h1 <= a[i]
    requires forall i :: 0 <= i < |b| ==> h2 <= b[i]
    ensures forall i :: 0 <= i < |a + b| ==> if i < |a| then h1 <= (a + b)[i] else h2 <= (a + b)[i]
  {
    var r := a + b;
    forall i | 0 <= i < |r| ensures if i < |a| then h1 <= r[i] else h2 <= r[i] {
      if i < |a| {
        assert r[i] == a[i];
      } else {
        assert r[i] == b[i - |a|];
      }
    }
  }

  lemma ConcatLines(a: seq<string>, b: seq<string>, first: seq<Rule>, h1: string, second: seq<Rule>, h2: string,
                    text: string, m: Matcher)
    requires ListsLines(a, first, h1, text, m) && ListsLines(b, second, h2, text, m)
    ensures TwoTierLines(a + b, first, h1, second, h2, text, m)
  {
    assert (a + b)[..|a|] == a && (a + b)[|a|..] == b;
  }

  /** `r` lists the line of every matching entry of `table`, in table
      order, and nothing else. */
  predicate ListsLines(r: seq<string>, table: seq<Rule>, heading: string, text: string, m: Matcher) {
    && |r| == |MatchedPositions(table, text, m)|
    && forall i :: 0 <= i < |r| ==> r[i] == Line(table, heading, text, m, MatchedPositions(table, text, m)[i])
  }

  /** `r` holds the lines of `first`'s matching entries under `h1`, then
      those of `second`'s under `h2`. */
  predicate TwoTierLines(r: seq<string>, first: seq<Rule>, h1: string, second: seq<Rule>, h2: string,
                         text: string, m: Matcher)
  {
    var n := |MatchedPositions(first, text, m)|;
    && n <= |r|
    && ListsLines(r[..n], first, h1, text, m)
    && ListsLines(r[n..], second, h2, text, m)
  }
}

=== FILE: quickscan.dfy ===
/** `getQuickAnalysis` of content/content.js: the synchronous first tier.
    Three high-severity patterns weigh 0.8 per match and three
    medium-severity patterns 0.6 per match; each tier is clamped to 1 on
    its own. */
module QuickScan {
  import opened Patterns
  import Text

  const HighRules: seq<Rule> :=
    [Rule(QuickViolence, 0.8), Rule(QuickProfanity, 0.8), Rule(QuickInsult, 0.8)]
  const MediumRules: seq<Rule> :=
    [Rule(QuickMild, 0.6), Rule(QuickSpamPhrase, 0.6), Rule(QuickUrgency, 0.6)]

  const HighHeading: string := "high-severity: "
  const MediumHeading: string := "medium-severity: "

  datatype QuickAnalysis = QuickAnalysis(
    toxicity: real,
    spam: real,
    highSeverity: bool,
    mediumSeverity: bool,
    confidence: real,
    primaryIssues: seq<string>,
    reasoning: string,
    provider: string,
    timestamp: int,
    originalText: string)

  function HighMatches(text: string, m: Matcher): nat {
    TotalMatches(HighRules, text, m)
  }

  function MediumMatches(text: string, m: Matcher): nat {
    TotalMatches(MediumRules, text, m)
  }

  /** Every high-severity entry weighs 0.8, so the sum is 0.8 per match. */
  lemma HighScore(text: string, m: Matcher)
    ensures RawScore(HighRules, text, m) == 0.8 * HighMatches(text, m) as real
  {
    var t := HighRules;
    var a, b, c := Hits(QuickViolence, text, m), Hits(QuickProfanity, text, m), Hits(QuickInsult, text, m);
    assert t[1..][1..] == [Rule(QuickInsult, 0.8)] && t[1..][1..][1..] == [];
    assert RawScore(t[1..][1..], text, m) == c as real * 0.8;
    assert TotalMatches(t[1..][1..], text, m) == c;
    assert t[1..] == [Rule(QuickProfanity, 0.8), Rule(QuickInsult, 0.8)];
    assert RawScore(t[1..], text, m) == b as real * 0.8 + c as real * 0.8;
    assert TotalMatches(t[1..], text, m) == b + c;
    assert RawScore(t, text, m) == a as real * 0.8 + b as real * 0.8 + c as real * 0.8;
    assert TotalMatches(t, text, m) == a + b + c;
  }

  /** Every medium-severity entry weighs 0.6, so the sum is 0.6 per match. */
  lemma MediumScore(text: string, m: Matcher)
    ensures RawScore(MediumRules, text, m) == 0.6 * MediumMatches(text, m) as real
  {
    var t := MediumRules;
    var a, b, c := Hits(QuickMild, text, m), Hits(QuickSpamPhrase, text, m), Hits(QuickUrgency, text, m);
    assert t[1..][1..] == [Rule(QuickUrgency, 0.6)] && t[1..][1..][1..] == [];
    assert RawScore(t[1..][1..], text, m) == c as real * 0.6;
    assert TotalMatches(t[1..][1..], text, m) == c;
    assert t[1..] == [Rule(QuickSpamPhrase, 0.6), Rule(QuickUrgency, 0.6)];
    assert RawScore(t[1..], text, m) == b as real * 0.6 + c as real * 0.6;
    assert TotalMatches(t[1..], text, m) == b + c;
    assert RawScore(t, text, m) == a as real * 0.6 + b as real * 0.6 + c as real * 0.6;
    assert TotalMatches(t, text, m) == a + b + c;
  }

  /** A tier of `n` matches weighing `w` each, capped at 1 and compared with
      a threshold `t` below `w`: the capped score is 0, `w` or 1, and the
      threshold is crossed iff there is a match. */
  lemma CappedTier(x: real, n: nat, w: real, t: real)
    requires x == w * n as real && 0.0 < t < w < 1.0 && 2.0 * w >= 1.0
    ensures Min(x, 1.0) == 0.0 || Min(x, 1.0) == w || Min(x, 1.0) == 1.0
    ensures x > t <==> n >= 1
    ensures x > t <==> Min(x, 1.0) > 0.0
  {
    if n >= 2 {
      assert w * n as real >= w * 2.0;
    }
  }

  /** The issue lines: one per matching high-severity pattern, then one
      per matching medium-severity pattern. */
  function QuickIssues(text: string, m: Matcher): (r: seq<string>)
    ensures |r| == MatchingRules(HighRules, text, m) + MatchingRules(MediumRules, text, m) <= 6
    ensures forall i :: 0 <= i < |r| ==>
      if i < MatchingRules(HighRules, text, m) then HighHeading <= r[i] else MediumHeading <= r[i]
    ensures TwoTierLines(r, HighRules, HighHeading, MediumRules, MediumHeading, text, m)
  {
    TwoTierIssues(HighRules, HighHeading, MediumRules, MediumHeading, text, m);
    Issues(HighRules, HighHeading, text, m) + Issues(MediumRules, MediumHeading, text, m)
  }

  /** The quick record. Toxicity is `min(0.8 × high matches, 1)`, so one of
      0, 0.8 and 1; spam is `min(0.6 × medium matches, 1)`, so one of 0,
      0.6 and 1. A single match of a tier already sets its severity flag.
      There is one issue per matching pattern, high-severity ones first. */
  function QuickAnalyze(text: string, now: int, m: Matcher): (q: QuickAnalysis)
    ensures q.toxicity == Min(0.8 * HighMatches(text, m) as real, 1.0)
    ensures q.spam == Min(0.6 * MediumMatches(text, m) as real, 1.0)
    ensures q.toxicity == 0.0 || q.toxicity == 0.8 || q.toxicity == 1.0
    ensures q.spam == 0.0 || q.spam == 0.6 || q.spam == 1.0
    ensures q.highSeverity <==> HighMatches(text, m) >= 1
    ensures q.mediumSeverity <==> MediumMatches(text, m) >= 1
    ensures q.highSeverity <==> q.toxicity > 0.0
    ensures q.mediumSeverity <==> q.spam > 0.0
    ensures q.primaryIssues == QuickIssues(text, m)
    ensures q.originalText == Text.Prefix(text, 100)
    ensures q.confidence == 0.85 && q.provider == "quick-scan" && q.timestamp == now
  {
    var high := RawScore(HighRules, text, m);
    var medium := RawScore(MediumRules, text, m);
    HighScore(text, m);
    MediumScore(text, m);
    assert high == 0.8 * HighMatches(text, m) as real;
    assert medium == 0.6 * MediumMatches(text, m) as real;
    CappedTier(high, HighMatches(text, m), 0.8, 0.5);
    CappedTier(medium, MediumMatches(text, m), 0.6, 0.4);
    var issues := QuickIssues(text, m);
    QuickAnalysis(
      toxicity := Min(high, 1.0),
      spam := Min(medium, 1.0),
      highSeverity := high > 0.5,
      mediumSeverity := medium > 0.4,
      confidence := 0.85,
      primaryIssues := issues,
      reasoning := "Quick pattern analysis",
      provider := "quick-scan",
      timestamp := now,
      originalText := Text.Prefix(text, 100))
  }

  /** The quick tier's two high-severity hits on "I hate you, you are so
      stupid" saturate toxicity at 1 and set the high-severity flag. */
  lemma TwoHighHitsSaturate(text: string, now: int, m: Matcher)
    requires |m(QuickViolence, text)| == 1 && |m(QuickInsult, text)| == 1
    requires m(QuickProfanity, text) == []
    ensures QuickAnalyze(text, now, m).toxicity == 1.0
    ensures QuickAnalyze(text, now, m).highSeverity
  {
    var t := HighRules;
    assert t[1..][1..][1..] == [];
    assert t[1..][1..] == [Rule(QuickInsult, 0.8)];
    assert TotalMatches(t[1..][1..], text, m) == 1;
    assert t[1..] == [Rule(QuickProfanity, 0.8), Rule(QuickInsult, 0.8)];
    assert TotalMatches(t[1..], text, m) == 1;
    assert HighMatches(text, m) == 2;
  }
}

=== FILE: ratelimit.dfy ===
/** The fixed-window request budget of background.js: at most 15 provider
    calls per 60,000 ms window. The window is described by the number of
    calls counted in it (`requestCount`) and the instant it opened
    (`requestResetTime`); clock readings are passed in as `now`. */
module RateLimit {

  const Capacity: int := 15
  const WindowMs: int := 60000

  datatype Window = Window(count: int, resetTime: int)

  /** The budget is never overdrawn. */
  predicate Valid(w: Window) {
    0 <= w.count <= Capacity
  }

  predicate Expired(w: Window, now: int) {
    now - w.resetTime > WindowMs
  }

  /** The window as seen by a request at `now`: an expired window is
      reopened at `now` with nothing counted in it. */
  function Roll(w: Window, now: int): (r: Window)
    ensures Expired(w, now) ==> r.count == 0 && r.resetTime == now
    ensures !Expired(w, now) ==> r == w
    ensures Valid(w) ==> Valid(r)
  {
    if Expired(w, now) then Window(0, now) else w
  }

  /** A request is refused when the (rolled) window already holds the
      full budget. */
  predicate Exhausted(w: Window) {
    w.count >= Capacity
  }

  /** Counts one completed provider call. */
  function Record(w: Window): (r: Window)
    requires !Exhausted(w)
    ensures r.count == w.count + 1 && r.resetTime == w.resetTime
    ensures Valid(w) ==> Valid(r)
  {
    w.(count := w.count + 1)
  }

  /** One request whose provider call and reply both succeed: roll, refuse
      when exhausted, otherwise count it. Returns the new window and
      whether the request was granted. */
  function Acquire(w: Window, now: int): (r: (Window, bool))
    ensures r.1 <==> !Exhausted(Roll(w, now))
    ensures r.1 ==> r.0 == Record(Roll(w, now))
    ensures !r.1 ==> r.0 == Roll(w, now)
    ensures Valid(w) ==> Valid(r.0)
  {
    var w1 := Roll(w, now);
    if Exhausted(w1) then (w1, false) else (Record(w1), true)
  }

  /** A series of requests at the given instants, in order. */
  function AcquireAll(w: Window, times: seq<int>): (r: (Window, seq<bool>))
    ensures |r.1| == |times|
    decreases |times|
  {
    if times == [] then (w, [])
    else
      var (w1, g) := Acquire(w, times[0]);
      var (w2, gs) := AcquireAll(w1, times[1..]);
      (w2, [g] + gs)
  }

  /** Within one window, the first `Capacity - count` requests are granted
      and every later one is refused; the count saturates at `Capacity`
      and the window does not move. */
  lemma {:induction false} AcquireWithinWindow(w: Window, times: seq<int>)
    requires Valid(w)
    requires forall k :: 0 <= k < |times| ==> times[k] - w.resetTime <= WindowMs
    ensures AcquireAll(w, times).0.resetTime == w.resetTime
    ensures AcquireAll(w, times).0.count
              == if w.count + |times| <= Capacity then w.count + |times| else Capacity
    ensures forall k :: 0 <= k < |times| ==> (AcquireAll(w, times).1[k] <==> w.count + k < Capacity)
    decreases |times|
  {
    if times != [] {
      var (w1, g) := Acquire(w, times[0]);
      AcquireWithinWindow(w1, times[1..]);
      var r := AcquireAll(w, times);
      var r1 := AcquireAll(w1, times[1..]);
      assert r.1 == [g] + r1.1;
      forall k | 0 <= k < |times|
        ensures r.1[k] <==> w.count + k < Capacity
      {
        if k > 0 {
          assert r.1[k] == r1.1[k - 1];
        }
      }
    }
  }

  /** Fifteen requests in a fresh window are granted and the sixteenth in the
      same window is refused. */
  lemma SixteenthRequestRefused(start: int, times: seq<int>)
    requires |times| == 16
    requires forall k :: 0 <= k < |times| ==> times[k] - start <= WindowMs
    ensures forall k :: 0 <= k < 15 ==> AcquireAll(Window(0, start), times).1[k]
    ensures !AcquireAll(Window(0, start), times).1[15]
    ensures AcquireAll(Window(0, start), times).0.count == Capacity
  {
    AcquireWithinWindow(Window(0, start), times);
  }

  /** Once more than 60,000 ms have passed since the window opened, the
      next request reopens it and is granted, whatever the count was. */
  lemma ExpiredWindowGrants(w: Window, now: int)
    requires Expired(w, now)
    ensures Acquire(w, now) == (Window(1, now), true)
  {
  }

  /** The answer of `getRateLimitStatus`. */
  datatype Status = Status(requestCount: int, maxRequests: int, timeUntilReset: int)

  /** A pure read of the window: reports the stored count (even when the
      window has expired, since nothing is rolled here), the capacity and
      the remaining time, floored at zero. */
  function GetStatus(w: Window, now: int): (st: Status)
    ensures st.requestCount == w.count && st.maxRequests == 15
    ensures st.timeUntilReset >= 0
    ensures st.timeUntilReset == 0 <==> now - w.resetTime >= WindowMs
    ensures st.timeUntilReset > 0 ==> st.timeUntilReset == WindowMs - (now - w.resetTime)
    ensures now >= w.resetTime ==> st.timeUntilReset <= WindowMs
    ensures st.timeUntilReset > 0 ==> Roll(w, now) == w
  {
    var remaining := WindowMs - (now - w.resetTime);
    Status(w.count, Capacity, if remaining > 0 then remaining else 0)
  }

  /** At exactly 60,000 ms the status already reports no time left, while
      a request made at that instant still counts against the old window:
      the status floors at zero, but the reset needs strictly more than
      60,000 ms. */
  lemma StatusZeroBeforeReset(w: Window)
    ensures GetStatus(w, w.resetTime + WindowMs).timeUntilReset == 0
    ensures Roll(w, w.resetTime + WindowMs) == w
  {
  }
}

=== FILE: registry.dfy ===
/** The unit registry and batch scheduler of content/content.js: which
    elements qualify for analysis, how candidates are gathered from the
    page and from mutation records, the per-element counter update, the
    10-element batching, the re-entrancy guard of a full scan, and the
    user's "mark safe" override.

    The page-level globals (`analyzed`, `flagged`, `approved`,
    `isAnalyzing`, `processedElements`) form a `Page` record threaded
    through pure transitions. The severity band that `determineFlagLevel`
    assigns to the quick analysis of a text is a parameter, since that
    function's body is not part of this model. */
module Registry {
  import opened Dom
  import opened Outcomes
  import Text
  import Seqs

  datatype Band = High | Medium | Low

  /** The severity band of a trimmed text: `determineFlagLevel` applied to
      `getQuickAnalysis`. */
  type Classifier = string -> Band

  /** The content script's globals. `annotated` holds the elements that
      currently carry a `data-moderkit-id` attribute, the handle through
      which the user can clear a flag. */
  datatype Page = Page(
    analyzed: int,
    flagged: int,
    approved: int,
    isAnalyzing: bool,
    processed: set<nat>,
    annotated: set<nat>)

  /** The globals as the script declares them. */
  function Initial(): (p: Page)
    ensures Balanced(p)
  {
    Page(0, 0, 0, false, {}, {})
  }

  /** Every analysed element was counted as exactly one of flagged or
      approved. */
  predicate Balanced(p: Page) {
    p.flagged + p.approved == p.analyzed && p.flagged >= 0 && p.approved >= 0
  }

  function Ids(es: seq<Element>): set<nat> {
    set e | e in es :: e.id
  }

  lemma IdsAppend(a: seq<Element>, b: seq<Element>)
    ensures Ids(a + b) == Ids(a) + Ids(b)
  {
    assert forall x :: x in a + b <==> x in a || x in b;
  }

  // ---------------------------------------------------------------------
  // Qualification

  const MinLength: int := 15
  const MaxLength: int := 2000
  const MinDirectText: int := 10

  /** `isValidTextElement`, with the source's order of checks. */
  predicate IsValidTextElement(e: Element, processed: set<nat>) {
    var content := TextContent(e);
    var text := Text.Trim(content);
    if content == "" then false
    else if text == "" || |text| < MinLength || |text| > MaxLength then false
    else if e.id in processed then false
    else DirectTextLength(e.children) > MinDirectText
  }

  /** An element qualifies exactly when its trimmed text has 15 to 2000
      characters, it has not been processed, and its own text children
      (trimmed) hold more than 10 characters. */
  lemma QualificationExactly(e: Element, processed: set<nat>)
    ensures IsValidTextElement(e, processed) <==>
      && MinLength <= |Text.Trim(TextContent(e))| <= MaxLength
      && e.id !in processed
      && DirectTextLength(e.children) > MinDirectText
  {
  }

  /** A container whose text all sits in nested elements never qualifies,
      so the same text is not counted again one level up. */
  lemma ContainerDoesNotQualify(e: Element, processed: set<nat>)
    requires forall i :: 0 <= i < |e.children| ==> e.children[i].TextNode? ==> Text.AllSpace(e.children[i].data)
    ensures !IsValidTextElement(e, processed)
  {
    NoOwnTextNoDirectLength(e.children);
  }

  // ---------------------------------------------------------------------
  // Candidate extraction

  const ExtractSelectors: seq<string> :=
    ["p", "h1", "h2", "h3", "h4", "h5", "h6", "div", "span", "li", "td", "blockquote"]
  const PageSelectors: seq<string> := ExtractSelectors + ["article", "section"]

  /** The element is matched by one of `selectors` and qualifies. */
  predicate Selected(e: Element, selectors: seq<string>, processed: set<nat>) {
    Text.ToLower(e.tag) in selectors && IsValidTextElement(e, processed)
  }

  /** For each selector in turn, the matches of `querySelectorAll` among
      `pool` that pass `isValidTextElement`. */
  function SelectValid(pool: seq<Element>, selectors: seq<string>, processed: set<nat>)
    : (r: seq<Element>)
    ensures forall i :: 0 <= i < |r| ==> r[i] in pool && Selected(r[i], selectors, processed)
    ensures forall i :: 0 <= i < |pool| ==> Selected(pool[i], selectors, processed) ==> pool[i] in r
  {
    if selectors == [] then []
    else
      Seqs.Filter(pool, (e: Element) => Text.ToLower(e.tag) == selectors[0] && IsValidTextElement(e, processed))
        + SelectValid(pool, selectors[1..], processed)
  }

  /** `[...new Set(elements)]`: keeps the first occurrence of each element. */
  function Dedup(s: seq<Element>): (r: seq<Element>)
    ensures forall i :: 0 <= i < |r| ==> r[i] in s
    ensures forall i, j :: 0 <= i < j < |r| ==> r[i].id != r[j].id
    ensures Ids(r) == Ids(s)
    ensures s != [] ==> r != [] && r[0] == s[0]
  {
    DedupAvoiding(s, {})
  }

  function DedupAvoiding(s: seq<Element>, seen: set<nat>): (r: seq<Element>)
    ensures forall i :: 0 <= i < |r| ==> r[i] in s && r[i].id !in seen
    ensures forall i, j :: 0 <= i < j < |r| ==> r[i].id != r[j].id
    ensures Ids(r) == Ids(s) - seen
    ensures s != [] && s[0].id !in seen ==> r != [] && r[0] == s[0]
  {
    if s == [] then []
    else
      assert Ids(s) == {s[0].id} + Ids(s[1..]) by {
        assert s == [s[0]] + s[1..];
        IdsAppend([s[0]], s[1..]);
      }
      if s[0].id in seen then
        DedupAvoiding(s[1..], seen)
      else
        var rest := DedupAvoiding(s[1..], seen + {s[0].id});
        IdsAppend([s[0]], rest);
        [s[0]] + rest
  }

  /** The candidates before repeats are dropped. */
  function ExtractCandidates(node: Element, processed: set<nat>): seq<Element> {
    (if IsValidTextElement(node, processed) then [node] else [])
      + SelectValid(Descendants(node), ExtractSelectors, processed)
  }

  lemma CandidateSound(node: Element, processed: set<nat>, x: Element)
    requires x in ExtractCandidates(node, processed)
    ensures x == node || (x in Descendants(node) && Selected(x, ExtractSelectors, processed))
  {
    var found := SelectValid(Descendants(node), ExtractSelectors, processed);
    if x != node {
      assert x in found;
      var i :| 0 <= i < |found| && found[i] == x;
    }
  }

  lemma CandidatesSound(node: Element, processed: set<nat>)
    ensures forall x :: x in ExtractCandidates(node, processed) ==>
      IsValidTextElement(x, processed)
      && (x == node || (x in Descendants(node) && Selected(x, ExtractSelectors, processed)))
  {
    forall x | x in ExtractCandidates(node, processed)
      ensures IsValidTextElement(x, processed)
      ensures x == node || (x in Descendants(node) && Selected(x, ExtractSelectors, processed))
    {
      CandidateSound(node, processed, x);
    }
  }

  lemma CandidatesComplete(node: Element, processed: set<nat>)
    ensures forall i :: 0 <= i < |Descendants(node)| ==>
      Selected(Descendants(node)[i], ExtractSelectors, processed) ==>
      Descendants(node)[i].id in Ids(ExtractCandidates(node, processed))
  {
    var own := if IsValidTextElement(node, processed) then [node] else [];
    var found := SelectValid(Descendants(node), ExtractSelectors, processed);
    forall i | 0 <= i < |Descendants(node)| && Selected(Descendants(node)[i], ExtractSelectors, processed)
      ensures Descendants(node)[i].id in Ids(own + found)
    {
      var d := Descendants(node)[i];
      assert d in found;
      assert d in own + found;
    }
  }

  /** `extractTextElementsFromNode`: the node itself when it qualifies,
      then the qualifying descendants matched by the selector list, without
      repeats. */
  function ExtractTextElements(node: Element, processed: set<nat>): (r: seq<Element>)
    ensures forall i :: 0 <= i < |r| ==> IsValidTextElement(r[i], processed)
    ensures forall i, j :: 0 <= i < j < |r| ==> r[i].id != r[j].id
    ensures IsValidTextElement(node, processed) ==> r != [] && r[0] == node
    ensures forall i :: 0 <= i < |r| ==>
      r[i] == node || (r[i] in Descendants(node) && Selected(r[i], ExtractSelectors, processed))
    ensures forall i :: 0 <= i < |Descendants(node)| ==>
      Selected(Descendants(node)[i], ExtractSelectors, processed) ==> Descendants(node)[i].id in Ids(r)
  {
    var c := ExtractCandidates(node, processed);
    var r := Dedup(c);
    CandidatesSound(node, processed);
    CandidatesComplete(node, processed);
    assert IsValidTextElement(node, processed) ==> c[0] == node;
    forall i | 0 <= i < |r|
      ensures IsValidTextElement(r[i], processed)
      ensures r[i] == node || (r[i] in Descendants(node) && Selected(r[i], ExtractSelectors, processed))
    {
      assert r[i] in c;
    }
    r
  }

  // ---------------------------------------------------------------------
  // Mutation collection

  datatype MutationKind = ChildList | CharacterData | Attributes

  /** A mutation record: its type, the nodes it added, and for a text
      change the element containing the changed text node. */
  datatype Mutation = Mutation(kind: MutationKind, addedNodes: seq<Node>, targetParent: Option<Element>)

  /** The candidates of the added nodes: those of every added element, in
      order; added text nodes contribute nothing. */
  function CollectAdded(ns: seq<Node>, processed: set<nat>): (r: seq<Element>)
    ensures forall i :: 0 <= i < |r| ==> IsValidTextElement(r[i], processed)
    ensures forall x :: x in r <==> exists k :: 0 <= k < |ns| && x in AddedCandidates(ns[k], processed)
    decreases |ns|
  {
    if ns == [] then []
    else
      var own := AddedCandidates(ns[0], processed);
      var rest := CollectAdded(ns[1..], processed);
      Seqs.ConsMembers(ns, (n: Node) => AddedCandidates(n, processed), own, rest);
      own + rest
  }

  /** What one added node contributes: the candidates of an element, and
      nothing for a text node. */
  function AddedCandidates(n: Node, processed: set<nat>): (r: seq<Element>)
    ensures forall i :: 0 <= i < |r| ==> IsValidTextElement(r[i], processed)
    ensures n.ElementNode? ==> r == ExtractTextElements(n.element, processed)
    ensures n.TextNode? ==> r == []
  {
    match n
    case TextNode(_) => []
    case ElementNode(e) => ExtractTextElements(e, processed)
  }

  lemma ValidIsUnprocessed(e: Element, processed: set<nat>)
    requires IsValidTextElement(e, processed)
    ensures e.id !in processed
  {
  }

  /** The candidates one mutation contributes: those of every added element
      and, for a text change, the containing element when it qualifies and
      is unprocessed. */
  function CollectOne(mu: Mutation, processed: set<nat>): (r: seq<Element>)
    ensures forall i :: 0 <= i < |r| ==> IsValidTextElement(r[i], processed)
    ensures forall x :: x in r <==> x in CollectAdded(mu.addedNodes, processed) || x in ChangedParent(mu, processed)
    ensures mu.addedNodes == [] && mu.kind == CharacterData && mu.targetParent.Some? ==>
      (r == [mu.targetParent.value] <==> IsValidTextElement(mu.targetParent.value, processed))
    ensures mu.addedNodes == [] && mu.kind == CharacterData && mu.targetParent.Some? ==>
      (r == [] <==> !IsValidTextElement(mu.targetParent.value, processed))
  {
    var added := CollectAdded(mu.addedNodes, processed);
    var changed := ChangedParent(mu, processed);
    assert mu.addedNodes == [] ==> added == [];
    added + changed
  }

  /** The parent of a changed text node, when it qualifies and is
      unprocessed. */
  function ChangedParent(mu: Mutation, processed: set<nat>): (r: seq<Element>)
    ensures forall x :: x in r <==>
      mu.kind == CharacterData && mu.targetParent == Some(x) && IsValidTextElement(x, processed)
    ensures mu.kind == CharacterData && mu.targetParent.Some? && IsValidTextElement(mu.targetParent.value, processed)
      ==> r == [mu.targetParent.value]
    ensures !(mu.kind == CharacterData && mu.targetParent.Some? && IsValidTextElement(mu.targetParent.value, processed))
      ==> r == []
  {
    if mu.kind == CharacterData && mu.targetParent.Some?
       && IsValidTextElement(mu.targetParent.value, processed)
       && mu.targetParent.value.id !in processed
    then [mu.targetParent.value] else []
  }

  /** The `newElements` list the observer callback builds: everything any
      of the mutations contributes, and nothing else. */
  function Collect(ms: seq<Mutation>, processed: set<nat>): (r: seq<Element>)
    ensures forall i :: 0 <= i < |r| ==> IsValidTextElement(r[i], processed) && r[i].id !in processed
    ensures forall x :: x in r <==> exists k :: 0 <= k < |ms| && x in CollectOne(ms[k], processed)
    decreases |ms|
  {
    if ms == [] then []
    else
      var one := CollectOne(ms[0], processed);
      var rest := Collect(ms[1..], processed);
      Seqs.ConsMembers(ms, (mu: Mutation) => CollectOne(mu, processed), one, rest);
      var r := one + rest;
      forall i | 0 <= i < |r| ensures IsValidTextElement(r[i], processed) && r[i].id !in processed {
        if i < |one| {
          assert r[i] == one[i];
        } else {
          assert r[i] == rest[i - |one|];
        }
        ValidIsUnprocessed(r[i], processed);
      }
      r
  }

  // ---------------------------------------------------------------------
  // Per-element processing and batching

  /** The counter part of `analyzeElementWithAI`: an element already
      processed changes nothing; otherwise it is counted as analysed,
      remembered, and counted as exactly one of flagged (HIGH or MEDIUM
      band, which also annotates it) or approved. */
  function AnalyzeElement(p: Page, e: Element, classify: Classifier): (r: Page)
    ensures e.id in p.processed ==> r == p
    ensures e.id !in p.processed ==>
      && r.analyzed == p.analyzed + 1
      && r.processed == p.processed + {e.id}
      && ((r.flagged == p.flagged + 1 && r.approved == p.approved)
          || (r.flagged == p.flagged && r.approved == p.approved + 1))
      && (r.flagged == p.flagged + 1 <==> classify(Text.Trim(TextContent(e))) != Low)
      && r.annotated == (if classify(Text.Trim(TextContent(e))) != Low then p.annotated + {e.id} else p.annotated)
    ensures r.flagged + r.approved - r.analyzed == p.flagged + p.approved - p.analyzed
    ensures Balanced(p) ==> Balanced(r)
    ensures r.isAnalyzing == p.isAnalyzing && p.annotated <= r.annotated
  {
    if e.id in p.processed then p
    else
      var text := Text.Trim(TextContent(e));
      var p1 := p.(analyzed := p.analyzed + 1, processed := p.processed + {e.id});
      match classify(text)
      case High => p1.(flagged := p1.flagged + 1, annotated := p1.annotated + {e.id})
      case Medium => p1.(flagged := p1.flagged + 1, annotated := p1.annotated + {e.id})
      case Low => p1.(approved := p1.approved + 1)
  }

  /** The elements analysed one after another, in order. */
  function ProcessAll(p: Page, es: seq<Element>, classify: Classifier): Page
    decreases |es|
  {
    if es == [] then p
    else AnalyzeElement(ProcessAll(p, es[..|es| - 1], classify), es[|es| - 1], classify)
  }

  /** Processing a list remembers every element of it. */
  lemma {:induction false} ProcessAllRemembers(p: Page, es: seq<Element>, classify: Classifier)
    ensures ProcessAll(p, es, classify).processed == p.processed + Ids(es)
    decreases |es|
  {
    if es != [] {
      var front, last := es[..|es| - 1], es[|es| - 1];
      ProcessAllRemembers(p, front, classify);
      assert es == front + [last];
      IdsAppend(front, [last]);
      assert Ids([last]) == {last.id};
    }
  }

  lemma IdsStep(processed: set<nat>, front: seq<Element>, last: Element)
    ensures last.id in processed + Ids(front) ==>
      Ids(front + [last]) - processed == Ids(front) - processed
    ensures last.id !in processed + Ids(front) ==>
      |Ids(front + [last]) - processed| == |Ids(front) - processed| + 1
  {
    IdsAppend(front, [last]);
    assert Ids([last]) == {last.id};
    NewMemberCount(Ids(front), processed, last.id);
  }

  /** Adding a member outside both sets grows their difference by one. */
  lemma NewMemberCount(a: set<nat>, processed: set<nat>, x: nat)
    ensures x in processed + a ==> (a + {x}) - processed == a - processed
    ensures x !in processed + a ==> |(a + {x}) - processed| == |a - processed| + 1
  {
    if x !in processed + a {
      assert (a + {x}) - processed == (a - processed) + {x};
    }
  }

  /** Processing a list counts each distinct new element exactly once: a
      repeated or already processed element adds nothing. */
  lemma {:induction false} ProcessAllCounts(p: Page, es: seq<Element>, classify: Classifier)
    ensures ProcessAll(p, es, classify).analyzed == p.analyzed + |Ids(es) - p.processed|
    decreases |es|
  {
    if es != [] {
      var front, last := es[..|es| - 1], es[|es| - 1];
      ProcessAllCounts(p, front, classify);
      ProcessAllRemembers(p, front, classify);
      assert es == front + [last];
      IdsStep(p.processed, front, last);
    }
  }

  /** Processing keeps the difference between the outcome counters and the
      analysed count, never lowers either outcome counter, and leaves the
      running flag alone. */
  lemma {:induction false} ProcessAllBalances(p: Page, es: seq<Element>, classify: Classifier)
    ensures var r := ProcessAll(p, es, classify);
      && r.flagged + r.approved - r.analyzed == p.flagged + p.approved - p.analyzed
      && r.flagged >= p.flagged && r.approved >= p.approved
      && r.isAnalyzing == p.isAnalyzing
    ensures Balanced(p) ==> Balanced(ProcessAll(p, es, classify))
    decreases |es|
  {
    if es != [] {
      ProcessAllBalances(p, es[..|es| - 1], classify);
    }
  }

  lemma ProcessAllEffect(p: Page, es: seq<Element>, classify: Classifier)
    ensures ProcessAll(p, es, classify).processed == p.processed + Ids(es)
    ensures ProcessAll(p, es, classify).analyzed == p.analyzed + |Ids(es) - p.processed|
    ensures ProcessAll(p, es, classify).isAnalyzing == p.isAnalyzing
    ensures Balanced(p) ==> Balanced(ProcessAll(p, es, classify))
  {
    ProcessAllRemembers(p, es, classify);
    ProcessAllCounts(p, es, classify);
    ProcessAllBalances(p, es, classify);
  }

  /** Elements that are all processed already leave the page untouched. */
  lemma {:induction false} ProcessAllProcessed(p: Page, es: seq<Element>, classify: Classifier)
    requires Ids(es) <= p.processed
    ensures ProcessAll(p, es, classify) == p
    decreases |es|
  {
    if es != [] {
      var front := es[..|es| - 1];
      assert Ids(front) <= Ids(es) by {
        assert forall x :: x in front ==> x in es;
      }
      assert es[|es| - 1] in es;
      ProcessAllProcessed(p, front, classify);
    }
  }

  /** Re-running the same elements is a no-op: counters are bumped once per
      element, however often it is submitted. */
  lemma ProcessAllIdempotent(p: Page, es: seq<Element>, classify: Classifier)
    ensures ProcessAll(ProcessAll(p, es, classify), es, classify) == ProcessAll(p, es, classify)
  {
    ProcessAllEffect(p, es, classify);
    ProcessAllProcessed(ProcessAll(p, es, classify), es, classify);
  }

  lemma {:induction false} ProcessAllAppend(p: Page, a: seq<Element>, b: seq<Element>, classify: Classifier)
    ensures ProcessAll(p, a + b, classify) == ProcessAll(ProcessAll(p, a, classify), b, classify)
    decreases |b|
  {
    if b == [] {
      assert a + b == a;
    } else {
      var front := b[..|b| - 1];
      assert (a + b)[..|a + b| - 1] == a + front;
      ProcessAllAppend(p, a, front, classify);
    }
  }

  const BatchSize: nat := 10

  /** The inner loop of `analyzeElementsBatch`: one slice, element by
      element. */
  method AnalyzeSlice(p: Page, batch: seq<Element>, classify: Classifier) returns (q: Page)
    ensures q == ProcessAll(p, batch, classify)
  {
    q := p;
    var j := 0;
    while j < |batch|
      invariant 0 <= j <= |batch|
      invariant q == ProcessAll(p, batch[..j], classify)
    {
      q := AnalyzeElement(q, batch[j], classify);
      assert batch[..j + 1][..j] == batch[..j];
      j := j + 1;
    }
    assert batch[..j] == batch;
  }

  /** `analyzeElementsBatch`: the elements are taken in consecutive slices of
      ten, each slice processed element by element before the next one
      starts. Returns the page and the slices it formed; the slices are
      exactly the 10-element chunks of the input, and the page is the one
      sequential processing of the whole input gives. */
  method AnalyzeElementsBatch(p: Page, es: seq<Element>, classify: Classifier)
    returns (q: Page, batches: seq<seq<Element>>)
    ensures batches == Seqs.Chunks(es, BatchSize)
    ensures q == ProcessAll(p, es, classify)
  {
    q := p;
    batches := [];
    var i := 0;
    while i < |es|
      invariant 0 <= i <= |es|
      invariant q == ProcessAll(p, es[..i], classify)
      invariant batches + Seqs.Chunks(es[i..], BatchSize) == Seqs.Chunks(es, BatchSize)
    {
      var end := if i + BatchSize <= |es| then i + BatchSize else |es|;
      var batch := es[i..end];
      q := AnalyzeSlice(q, batch, classify);
      SliceStep(p, es, i, end, classify);
      ChunkStep(es, i, end, batches);
      batches := batches + [batch];
      i := end;
    }
    assert es[..i] == es;
  }

  /** Processing the prefix up to `i` and then the slice `[i, end)` is
      processing the prefix up to `end`. */
  lemma SliceStep(p: Page, es: seq<Element>, i: nat, end: nat, classify: Classifier)
    requires i <= end <= |es|
    ensures ProcessAll(ProcessAll(p, es[..i], classify), es[i..end], classify)
      == ProcessAll(p, es[..end], classify)
  {
    var front, slice := es[..i], es[i..end];
    assert front + slice == es[..end];
    ProcessAllAppend(p, front, slice, classify);
  }

  /** Appending the slice `[i, end)` to the slices formed so far keeps them
      a prefix of the chunks of the whole input. */
  lemma ChunkStep(es: seq<Element>, i: nat, end: nat, batches: seq<seq<Element>>)
    requires i < |es| && end == (if i + BatchSize <= |es| then i + BatchSize else |es|)
    requires batches + Seqs.Chunks(es[i..], BatchSize) == Seqs.Chunks(es, BatchSize)
    ensures (batches + [es[i..end]]) + Seqs.Chunks(es[end..], BatchSize) == Seqs.Chunks(es, BatchSize)
  {
    Seqs.SliceOfSlice(es, i, end);
    Seqs.ChunksShift(batches, es[i..], BatchSize);
  }

  /** Ten elements per slice: `n` elements give `⌈n / 10⌉` slices. */
  lemma {:induction false} BatchCount(es: seq<Element>)
    ensures |Seqs.Chunks(es, BatchSize)| == (|es| + 9) / 10
    decreases |es|
  {
    if |es| > BatchSize {
      BatchCount(es[BatchSize..]);
    }
  }

  // ---------------------------------------------------------------------
  // Full scan

  /** `findAllTextElements`: for each page selector in turn, the qualifying
      elements of the document in document order. */
  function FindAllTextElements(root: Element, processed: set<nat>): (r: seq<Element>)
    ensures forall i :: 0 <= i < |r| ==>
      r[i] in [root] + Descendants(root) && Selected(r[i], PageSelectors, processed)
    ensures forall i :: 0 <= i < |[root] + Descendants(root)| ==>
      Selected(([root] + Descendants(root))[i], PageSelectors, processed) ==> ([root] + Descendants(root))[i] in r
  {
    SelectValid([root] + Descendants(root), PageSelectors, processed)
  }

  datatype ScanOutcome = AlreadyRunning | NoContent | Completed

  /** `startAnalysis`. While a scan is running the call changes nothing.
      Otherwise the counters restart from zero, the qualifying elements are
      processed, and the running flag is cleared on every way out. The set
      of processed elements is not reset, so a rescan only counts elements
      not seen before. */
  function StartAnalysis(p: Page, root: Element, classify: Classifier): (r: (Page, ScanOutcome))
    ensures p.isAnalyzing ==> r == (p, AlreadyRunning)
    ensures !p.isAnalyzing ==> !r.0.isAnalyzing && Balanced(r.0)
    ensures !p.isAnalyzing ==>
      r.0.analyzed == |Ids(FindAllTextElements(root, p.processed)) - p.processed|
    ensures !p.isAnalyzing ==> r.0.processed == p.processed + Ids(FindAllTextElements(root, p.processed))
    ensures r.1 == NoContent ==> r.0.analyzed == 0 && r.0.flagged == 0 && r.0.approved == 0
    ensures !p.isAnalyzing ==>
      r.0 == ProcessAll(p.(isAnalyzing := true, analyzed := 0, flagged := 0, approved := 0),
                        FindAllTextElements(root, p.processed), classify).(isAnalyzing := false)
    ensures !p.isAnalyzing ==> (r.1 == NoContent <==> FindAllTextElements(root, p.processed) == [])
  {
    if p.isAnalyzing then (p, AlreadyRunning)
    else
      var reset := p.(isAnalyzing := true, analyzed := 0, flagged := 0, approved := 0);
      var elements := FindAllTextElements(root, reset.processed);
      assert Balanced(reset);
      ProcessAllEffect(reset, elements, classify);
      var done := ProcessAll(reset, elements, classify);
      if elements == [] then (reset.(isAnalyzing := false), NoContent)
      else (done.(isAnalyzing := false), Completed)
  }

  // ---------------------------------------------------------------------
  // Mutation callback

  /** The observer callback: the collected candidates go to one batch when
      there is at least one; nothing happens otherwise. */
  function OnMutations(p: Page, ms: seq<Mutation>, classify: Classifier): (r: (Page, bool))
    ensures r.1 <==> Collect(ms, p.processed) != []
    ensures !r.1 ==> r.0 == p
    ensures r.0 == ProcessAll(p, Collect(ms, p.processed), classify)
    ensures Balanced(p) ==> Balanced(r.0)
  {
    var found := Collect(ms, p.processed);
    ProcessAllEffect(p, found, classify);
    if found != [] then (ProcessAll(p, found, classify), true) else (p, false)
  }

  // ---------------------------------------------------------------------
  // Mark safe

  /** The counter part of `markElementSafe`. The element is looked up by
      its annotation; when found, the annotation is removed and, if any
      flag is counted, one moves from flagged to approved. */
  function MarkSafe(p: Page, target: nat): (r: Page)
    ensures target !in p.annotated ==> r == p
    ensures target in p.annotated && p.flagged > 0 ==>
      r.flagged == p.flagged - 1 && r.approved == p.approved + 1
    ensures !(target in p.annotated && p.flagged > 0) ==>
      r.flagged == p.flagged && r.approved == p.approved
    ensures r.analyzed == p.analyzed && target !in r.annotated
    ensures r.annotated == p.annotated - {target}
    ensures r.processed == p.processed && r.isAnalyzing == p.isAnalyzing
    ensures Balanced(p) ==> Balanced(r)
  {
    if target !in p.annotated then p
    else
      var cleared := p.(annotated := p.annotated - {target});
      if p.flagged > 0 then cleared.(flagged := p.flagged - 1, approved := p.approved + 1)
      else cleared
  }

  /** Clearing the same element twice moves the counters only once. */
  lemma MarkSafeTwice(p: Page, target: nat)
    ensures MarkSafe(MarkSafe(p, target), target) == MarkSafe(p, target)
  {
  }

  // ---------------------------------------------------------------------
  // Any interleaving of the page's events

  datatype Event =
    | Scan(root: Element)
    | Mutations(records: seq<Mutation>)
    | Submit(elements: seq<Element>)
    | UserMarksSafe(target: nat)

  function Step(p: Page, ev: Event, classify: Classifier): (r: Page)
    ensures Balanced(p) ==> Balanced(r)
  {
    ProcessAllEffect(p, if ev.Submit? then ev.elements else [], classify);
    match ev
    case Scan(root) => StartAnalysis(p, root, classify).0
    case Mutations(ms) => OnMutations(p, ms, classify).0
    case Submit(es) => ProcessAll(p, es, classify)
    case UserMarksSafe(t) => MarkSafe(p, t)
  }

  function RunEvents(p: Page, evs: seq<Event>, classify: Classifier): Page
    decreases |evs|
  {
    if evs == [] then p else RunEvents(Step(p, evs[0], classify), evs[1..], classify)
  }

  /** After any sequence of scans, mutation batches, submitted batches and
      user overrides, `flagged + approved == analyzed` with both parts
      non-negative. */
  lemma {:induction false} EventsKeepBalance(p: Page, evs: seq<Event>, classify: Classifier)
    requires Balanced(p)
    ensures Balanced(RunEvents(p, evs, classify))
    decreases |evs|
  {
    if evs != [] {
      EventsKeepBalance(Step(p, evs[0], classify), evs[1..], classify);
    }
  }
}

=== FILE: reply.dfy ===
/** `parseGeminiResponse` of background.js: locate the JSON object in the
    provider's free-form reply and map its loosely typed fields onto an
    `Analysis`, clamping and defaulting as it goes.

    `JSON.parse` is not modelled; it is a parameter that either fails or
    yields the record of optional fields below. */
module Reply {
  import opened Outcomes
  import opened Analysis
  import Text

  /** The fields of the reply object the mapper reads; `None` stands for a
      field that is missing. */
  datatype Fields = Fields(
    toxicityScore: Option<real>,
    spamScore: Option<real>,
    hateSpeechScore: Option<real>,
    shouldFlag: Option<bool>,
    confidence: Option<real>,
    primaryIssues: Option<seq<string>>,
    reasoning: Option<string>,
    contentType: Option<string>)

  /** `JSON.parse`: `None` when it throws. */
  type JsonParser = string -> Option<Fields>

  const ParseFailure: string := "Failed to parse AI analysis result"

  /** Half-open character range `[start, end)` of a match. */
  datatype Span = Span(start: nat, end: nat)

  /** Index of the first occurrence of `c`. */
  function FirstIndexOf(s: string, c: char): (r: Option<nat>)
    ensures r.None? <==> c !in s
    ensures r.Some? ==> r.value < |s| && s[r.value] == c
    ensures r.Some? ==> forall k :: 0 <= k < r.value ==> s[k] != c
  {
    if s == [] then None
    else if s[0] == c then Some(0)
    else
      var rest := FirstIndexOf(s[1..], c);
      assert c in s[1..] <==> c in s by {
        assert s == [s[0]] + s[1..];
      }
      if rest.None? then None else Some(rest.value + 1)
  }

  /** Index of the last occurrence of `c`. */
  function LastIndexOf(s: string, c: char): (r: Option<nat>)
    ensures r.None? <==> c !in s
    ensures r.Some? ==> r.value < |s| && s[r.value] == c
    ensures r.Some? ==> forall k :: r.value < k < |s| ==> s[k] != c
  {
    if s == [] then None
    else if s[|s| - 1] == c then Some(|s| - 1)
    else
      var front := s[..|s| - 1];
      assert c in front <==> c in s by {
        assert s == front + [s[|s| - 1]];
      }
      LastIndexOf(front, c)
  }

  /** `responseText.match(/\{[\s\S]*\}/)`: the leftmost `{` that has a `}`
      somewhere after it, extended greedily to the last `}` of the text.
      There is such a match exactly when some `{` precedes some `}`. */
  function MatchObject(s: string): (r: Option<Span>)
    ensures r.None? <==> forall i, j :: 0 <= i < j < |s| ==> !(s[i] == '{' && s[j] == '}')
    ensures r.Some? ==> r.value.start < r.value.end <= |s|
    ensures r.Some? ==> s[r.value.start] == '{' && s[r.value.end - 1] == '}'
    ensures r.Some? ==> forall k :: 0 <= k < r.value.start ==> s[k] != '{'
    ensures r.Some? ==> forall k :: r.value.end <= k < |s| ==> s[k] != '}'
  {
    var open := FirstIndexOf(s, '{');
    var close := LastIndexOf(s, '}');
    if open.Some? && close.Some? && open.value < close.value then
      Some(Span(open.value, close.value + 1))
    else
      None
  }

  /** A present number in [0, 1]. */
  predicate InRange(v: Option<real>) {
    v.Some? && 0.0 <= v.value <= 1.0
  }

  /** How a numeric field `v` is read, with default `d` (itself in [0, 1]):
      a missing or zero value gives `d`, a value in [0, 1] is kept, and a
      value outside is clamped to the nearer bound. */
  predicate ReadAs(v: Option<real>, d: real, x: real) {
    && (v.None? || v.value == 0.0 ==> x == d)
    && (InRange(v) && v.value != 0.0 ==> x == v.value)
    && (v.Some? && v.value > 1.0 ==> x == 1.0)
    && (v.Some? && v.value < 0.0 ==> x == 0.0)
  }

  /** How a text field `v` is read with `v || d`: a missing or empty value
      gives `d`, any other value is kept. */
  predicate TextAs(v: Option<string>, d: string, x: string) {
    && (v.None? || v.value == "" ==> x == d)
    && (v.Some? && v.value != "" ==> x == v.value)
  }

  /** The field mapping of `parseGeminiResponse`: scores default to 0 and
      are clamped into [0, 1], a missing or zero confidence becomes 0.5, a
      missing flag is `false`, a missing or empty reasoning or content type
      takes its default text, and the excerpt is the first 100 characters
      of the analysed text. */
  function FromFields(f: Fields, originalText: string, now: int): (a: Analysis)
    ensures ScoresInRange(a)
    ensures a.provider == GeminiFlash && a.timestamp == now
    ensures a.originalText == Text.Prefix(originalText, 100)
    ensures ReadAs(f.toxicityScore, 0.0, a.toxicity)
    ensures ReadAs(f.spamScore, 0.0, a.spam)
    ensures ReadAs(f.hateSpeechScore, 0.0, a.hateSpeech)
    ensures ReadAs(f.confidence, 0.5, a.confidence)
    ensures a.shouldFlag == f.shouldFlag.GetOr(false)
    ensures a.primaryIssues == f.primaryIssues.GetOr([])
    ensures TextAs(f.reasoning, "AI analysis completed", a.reasoning)
    ensures TextAs(f.contentType, "normal", a.contentType)
  {
    Analysis(
      toxicity := Clamp01(NumberOr(f.toxicityScore, 0.0)),
      spam := Clamp01(NumberOr(f.spamScore, 0.0)),
      hateSpeech := Clamp01(NumberOr(f.hateSpeechScore, 0.0)),
      shouldFlag := f.shouldFlag.GetOr(false),
      confidence := Clamp01(NumberOr(f.confidence, 0.5)),
      primaryIssues := f.primaryIssues.GetOr([]),
      reasoning := StringOr(f.reasoning, "AI analysis completed"),
      contentType := StringOr(f.contentType, "normal"),
      provider := GeminiFlash,
      timestamp := now,
      originalText := Text.Prefix(originalText, 100))
  }

  /** The text of the match, or `""` when there is none. */
  function Matched(s: string): string {
    var m := MatchObject(s);
    if m.Some? then s[m.value.start..m.value.end] else ""
  }

  /** `parseGeminiResponse`: extraction, then `JSON.parse`, then the field
      mapping. Every failure is rethrown as the single parse-failure error;
      there is no partial result. */
  function ParseResponse(responseText: string, originalText: string, now: int, parse: JsonParser)
    : (r: Completion<Analysis>)
    ensures r.Thrown? ==> r.message == ParseFailure
    ensures r.Thrown? <==> (MatchObject(responseText).None? || parse(Matched(responseText)).None?)
    ensures (forall i, j :: 0 <= i < j < |responseText| ==> !(responseText[i] == '{' && responseText[j] == '}'))
              ==> r.Thrown?
    ensures r.Normal? ==> ScoresInRange(r.value) && r.value.provider == GeminiFlash
    ensures r.Normal? ==> r.value == FromFields(parse(Matched(responseText)).value, originalText, now)
  {
    var span := MatchObject(responseText);
    if span.None? then Thrown(ParseFailure)
    else
      var fields := parse(responseText[span.value.start..span.value.end]);
      if fields.None? then Thrown(ParseFailure)
      else Normal(FromFields(fields.value, originalText, now))
  }

  /** The provider may wrap the object in prose: as long as no `{` comes
      before the object and no `}` after it, the object is recovered
      exactly, whatever braces it contains. */
  lemma {:induction false} MatchRecoversWrappedObject(pre: string, obj: string, post: string)
    requires |obj| >= 2 && obj[0] == '{' && obj[|obj| - 1] == '}'
    requires '{' !in pre && '}' !in post
    ensures Matched(pre + obj + post) == obj
  {
    var s := pre + obj + post;
    var m := MatchObject(s);
    assert s[|pre|] == '{' && s[|pre| + |obj| - 1] == '}';
    assert m.Some?;
    assert m.value.start == |pre|;
    assert m.value.end == |pre| + |obj|;
    assert s[|pre|..|pre| + |obj|] == obj;
  }

  /** A reply whose scores are all present and in range (with a non-zero
      confidence) is read back without loss. */
  lemma InRangeRepliesRoundTrip(f: Fields, originalText: string, now: int)
    requires InRange(f.toxicityScore) && InRange(f.spamScore) && InRange(f.hateSpeechScore)
    requires InRange(f.confidence) && f.confidence.value != 0.0
    requires f.shouldFlag.Some?
    ensures var a := FromFields(f, originalText, now);
      && a.toxicity == f.toxicityScore.value
      && a.spam == f.spamScore.value
      && a.hateSpeech == f.hateSpeechScore.value
      && a.confidence == f.confidence.value
      && a.shouldFlag == f.shouldFlag.value
  {
  }
}

=== FILE: seqs.dfy ===
/** Generic sequence helpers shared by the models: filtering, flattening,
    JavaScript's `Array.prototype.slice(0, n)` and fixed-size chunking. */
module Seqs {

  /** Keeps the elements satisfying `p`, in order (`Array.prototype.filter`). */
  function Filter<T>(s: seq<T>, p: T -> bool): (r: seq<T>)
    ensures |r| <= |s|
    ensures forall i :: 0 <= i < |r| ==> r[i] in s && p(r[i])
    ensures forall i :: 0 <= i < |s| && p(s[i]) ==> s[i] in r
  {
    if s == [] then []
    else (if p(s[0]) then [s[0]] else []) + Filter(s[1..], p)
  }

  /** Number of elements satisfying `p`. */
  function CountWhere<T>(s: seq<T>, p: T -> bool): (n: nat)
    ensures n <= |s|
    ensures n == 0 <==> forall i :: 0 <= i < |s| ==> !p(s[i])
  {
    if s == [] then 0
    else (if p(s[0]) then 1 else 0) + CountWhere(s[1..], p)
  }

  lemma {:induction false} CountIsFilterLength<T>(s: seq<T>, p: T -> bool)
    ensures CountWhere(s, p) == |Filter(s, p)|
  {
    if s != [] {
      CountIsFilterLength(s[1..], p);
    }
  }

  /** Concatenation of a sequence of sequences. */
  function Flatten<T>(ss: seq<seq<T>>): seq<T>
  {
    if ss == [] then [] else ss[0] + Flatten(ss[1..])
  }

  /** `Array.prototype.slice(0, end)`: a negative `end` counts back from the
      end of the array, and the result never exceeds the array. */
  function SliceTo<T>(s: seq<T>, end: int): (r: seq<T>)
    ensures end >= 0 ==> |r| == if end <= |s| then end else |s|
    ensures end < 0 ==> |r| == if |s| + end >= 0 then |s| + end else 0
    ensures r == s[..|r|]
  {
    var stop := if end >= 0 then (if end <= |s| then end else |s|)
                else (if |s| + end >= 0 then |s| + end else 0);
    s[..stop]
  }

  /** Consecutive slices of at most `k` elements, as produced by
      `for (i = 0; i < s.length; i += k) s.slice(i, i + k)`. */
  function Chunks<T>(s: seq<T>, k: nat): (r: seq<seq<T>>)
    requires k > 0
    ensures Flatten(r) == s
    ensures forall i :: 0 <= i < |r| ==> 0 < |r[i]| <= k
    ensures forall i :: 0 <= i < |r| - 1 ==> |r[i]| == k
    decreases |s|
  {
    if s == [] then []
    else if |s| <= k then [s]
    else
      var rest := Chunks(s[k..], k);
      assert s == s[..k] + s[k..];
      [s[..k]] + rest
  }

  /** One step of chunking: the first slice is the first `k` elements (or
      all of them), and the rest are the chunks of what remains. */
  lemma ChunksStep<T>(s: seq<T>, k: nat)
    requires k > 0 && s != []
    ensures var n := if |s| <= k then |s| else k;
      Chunks(s, k) == [s[..n]] + Chunks(s[n..], k)
  {
    if |s| <= k {
      assert s[..|s|] == s && s[|s|..] == [];
    }
  }

  /** Moving the first chunk of `t` onto the chunks already formed. */
  lemma ChunksShift<T>(done: seq<seq<T>>, t: seq<T>, k: nat)
    requires k > 0 && t != []
    ensures var n := if |t| <= k then |t| else k;
      done + Chunks(t, k) == (done + [t[..n]]) + Chunks(t[n..], k)
  {
    ChunksStep(t, k);
    var n := if |t| <= k then |t| else k;
    AppendAssoc(done, [t[..n]], Chunks(t[n..], k));
  }

  lemma AppendAssoc<U>(a: seq<U>, b: seq<U>, c: seq<U>)
    ensures a + (b + c) == (a + b) + c
  {
  }

  lemma SliceOfSlice<T>(s: seq<T>, i: nat, j: nat)
    requires i <= j <= |s|
    ensures s[i..][..j - i] == s[i..j] && s[i..][j - i..] == s[j..]
  {
  }

  /** The members of `f(s[0]) + rest`, when `rest` holds exactly what `f`
      gives on the rest of `s`, are exactly what `f` gives on some element
      of `s`. */
  lemma ConsMembers<A, B>(s: seq<A>, f: A -> seq<B>, own: seq<B>, rest: seq<B>)
    requires s != [] && own == f(s[0])
    requires forall x :: x in rest <==> exists k :: 0 <= k < |s[1..]| && x in f(s[1..][k])
    ensures forall x :: x in own + rest <==> exists k :: 0 <= k < |s| && x in f(s[k])
  {
    forall x | x in own + rest
      ensures exists k :: 0 <= k < |s| && x in f(s[k])
    {
      if x !in own {
        var k :| 0 <= k < |s[1..]| && x in f(s[1..][k]);
        assert s[k + 1] == s[1..][k];
      }
    }
    forall x, k | 0 <= k < |s| && x in f(s[k])
      ensures x in own + rest
    {
      if k > 0 {
        assert s[1..][k - 1] == s[k];
      }
    }
  }
}

=== FILE: text.dfy ===
/** String helpers with the semantics of the JavaScript built-ins the
    extension relies on: `trim`, `substring(0, n)`, `toLowerCase`,
    `split(/\s+/)`, `join` and `Number.prototype.toString()` on naturals. */
module Text {

  /** The white-space and line-terminator code points that both `trim` and
      the regular-expression class `\s` recognise. */
  predicate IsSpace(c: char) {
    var n := c as int;
    || n == 0x20 || (0x09 <= n <= 0x0D) || n == 0xA0 || n == 0x1680
    || (0x2000 <= n <= 0x200A) || n == 0x2028 || n == 0x2029 || n == 0x202F
    || n == 0x205F || n == 0x3000 || n == 0xFEFF
  }

  predicate AllSpace(s: string) {
    forall i :: 0 <= i < |s| ==> IsSpace(s[i])
  }

  /** Number of white-space characters at the start of `s`. */
  function LeadingSpaces(s: string): (n: nat)
    ensures n <= |s|
    ensures forall i :: 0 <= i < n ==> IsSpace(s[i])
    ensures n < |s| ==> !IsSpace(s[n])
  {
    if s == [] || !IsSpace(s[0]) then 0 else 1 + LeadingSpaces(s[1..])
  }

  /** Number of white-space characters at the end of `s`. */
  function TrailingSpaces(s: string): (n: nat)
    ensures n <= |s|
    ensures forall i :: |s| - n <= i < |s| ==> IsSpace(s[i])
    ensures n < |s| ==> !IsSpace(s[|s| - 1 - n])
  {
    if s == [] || !IsSpace(s[|s| - 1]) then 0 else 1 + TrailingSpaces(s[..|s| - 1])
  }

  /** `trimStart`: the suffix of `s` left after dropping leading white space. */
  function TrimStart(s: string): (r: string)
    ensures |r| <= |s| && r == s[|s| - |r|..]
    ensures r == [] || !IsSpace(r[0])
    ensures forall i :: 0 <= i < |s| - |r| ==> IsSpace(s[i])
  {
    s[LeadingSpaces(s)..]
  }

  /** `trimEnd`: the prefix of `s` left after dropping trailing white space. */
  function TrimEnd(s: string): (r: string)
    ensures |r| <= |s| && r == s[..|r|]
    ensures r == [] || !IsSpace(r[|r| - 1])
    ensures forall i :: |r| <= i < |s| ==> IsSpace(s[i])
  {
    s[..|s| - TrailingSpaces(s)]
  }

  /** `String.prototype.trim`: the part of `s` between its leading and its
      trailing white space. */
  function Trim(s: string): (r: string)
    ensures |r| <= |s|
    ensures r == [] || (!IsSpace(r[0]) && !IsSpace(r[|r| - 1]))
    ensures r == [] <==> AllSpace(s)
    ensures exists i :: 0 <= i <= |s| - |r| && r == s[i..i + |r|]
              && AllSpace(s[..i]) && AllSpace(s[i + |r|..])
  {
    var t := TrimStart(s);
    var r := TrimEnd(t);
    assert r == [] ==> t == [];
    TrimmedIsInfix(s, t, r);
    r
  }

  /** The end-trim of the start-trim of `s` is an infix of `s` with only
      white space around it. */
  lemma TrimmedIsInfix(s: string, t: string, r: string)
    requires t == TrimStart(s) && r == TrimEnd(t)
    ensures exists i :: 0 <= i <= |s| - |r| && r == s[i..i + |r|]
              && AllSpace(s[..i]) && AllSpace(s[i + |r|..])
  {
    var i := |s| - |t|;
    assert t == s[i..];
    assert r == s[i..i + |r|];
    assert AllSpace(s[..i]);
    assert AllSpace(s[i + |r|..]) by {
      assert s[i + |r|..] == t[|r|..];
    }
  }

  /** A string with no surrounding white space is its own trim. */
  lemma TrimOfTrimmed(s: string)
    requires s == [] || (!IsSpace(s[0]) && !IsSpace(s[|s| - 1]))
    ensures Trim(s) == s
  {
    assert LeadingSpaces(s) == 0;
    assert TrimStart(s) == s;
    assert TrailingSpaces(s) == 0;
  }

  /** Trimming is idempotent. */
  lemma TrimIdempotent(s: string)
    ensures Trim(Trim(s)) == Trim(s)
  {
    var t := Trim(s);
    TrimOfTrimmed(t);
  }

  /** `s.substring(0, n)` for a non-negative `n`. */
  function Prefix(s: string, n: nat): (r: string)
    ensures |r| == if |s| <= n then |s| else n
    ensures r == s[..|r|]
  {
    if |s| <= n then s else s[..n]
  }

  function LowerChar(c: char): char {
    if 'A' <= c <= 'Z' then (c as int + 32) as char else c
  }

  /** `toLowerCase`, restricted to the ASCII letters. */
  function ToLower(s: string): (r: string)
    ensures |r| == |s|
    ensures forall i :: 0 <= i < |s| ==> r[i] == LowerChar(s[i])
  {
    seq(|s|, i requires 0 <= i < |s| => LowerChar(s[i]))
  }

  /** `s.split(/\s+/)`: the fields between maximal runs of white space,
      including the empty leading or trailing field a run at either end
      produces. */
  function SplitSpaces(s: string): (r: seq<string>)
    ensures |r| >= 1
    decreases |s|
  {
    if s == [] then [""]
    else if IsSpace(s[0]) then [""] + SplitSpaces(TrimStart(s))
    else
      var rest := SplitSpaces(s[1..]);
      [[s[0]] + rest[0]] + rest[1..]
  }

  function Concat(ss: seq<string>): string {
    if ss == [] then "" else ss[0] + Concat(ss[1..])
  }

  /** `s` with all its white space removed. */
  function RemoveSpaces(s: string): string {
    if s == [] then ""
    else (if IsSpace(s[0]) then "" else [s[0]]) + RemoveSpaces(s[1..])
  }

  lemma {:induction false} RemoveSpacesOfBlank(s: string)
    requires AllSpace(s)
    ensures RemoveSpaces(s) == ""
  {
    if s != [] {
      RemoveSpacesOfBlank(s[1..]);
    }
  }

  lemma {:induction false} RemoveSpacesAppend(a: string, b: string)
    ensures RemoveSpaces(a + b) == RemoveSpaces(a) + RemoveSpaces(b)
  {
    if a != [] {
      assert (a + b)[1..] == a[1..] + b;
      RemoveSpacesAppend(a[1..], b);
    } else {
      assert a + b == b;
    }
  }

  /** Concatenated, the fields of a split give back every character of the
      text except its white space, in order. */
  lemma {:induction false} SplitSpacesConcat(s: string)
    ensures Concat(SplitSpaces(s)) == RemoveSpaces(s)
    decreases |s|
  {
    if s == [] {
    } else if IsSpace(s[0]) {
      var t := TrimStart(s);
      SplitSpacesConcat(t);
      LeadingSpacesRemoved(s);
      assert SplitSpaces(s) == [""] + SplitSpaces(t);
      assert Concat([""] + SplitSpaces(t)) == Concat(SplitSpaces(t));
    } else {
      SplitSpacesConcat(s[1..]);
      ConcatExtendFirst(s[0], SplitSpaces(s[1..]));
    }
  }

  /** Dropping the leading white space does not change what remains once
      all white space is removed. */
  lemma LeadingSpacesRemoved(s: string)
    ensures RemoveSpaces(TrimStart(s)) == RemoveSpaces(s)
  {
    var t := TrimStart(s);
    var lead := s[..|s| - |t|];
    assert s == lead + t;
    assert AllSpace(lead);
    RemoveSpacesAppend(lead, t);
    RemoveSpacesOfBlank(lead);
  }

  /** Prepending a character to the first field prepends it to the
      concatenation. */
  lemma ConcatExtendFirst(c: char, fields: seq<string>)
    requires |fields| >= 1
    ensures Concat([[c] + fields[0]] + fields[1..]) == [c] + Concat(fields)
  {
    var r := [[c] + fields[0]] + fields[1..];
    assert r[1..] == fields[1..];
    assert Concat(fields) == fields[0] + Concat(fields[1..]);
  }

  /** No field of a split contains white space. */
  lemma {:induction false} SplitSpacesNoSpace(s: string)
    ensures forall k, i :: 0 <= k < |SplitSpaces(s)| && 0 <= i < |SplitSpaces(s)[k]|
              ==> !IsSpace(SplitSpaces(s)[k][i])
    decreases |s|
  {
    var r := SplitSpaces(s);
    if s == [] {
    } else if IsSpace(s[0]) {
      SplitSpacesNoSpace(TrimStart(s));
    } else {
      var rest := SplitSpaces(s[1..]);
      SplitSpacesNoSpace(s[1..]);
      forall k, i | 0 <= k < |r| && 0 <= i < |r[k]|
        ensures !IsSpace(r[k][i])
      {
        if k == 0 && i > 0 {
          assert r[0][i] == rest[0][i - 1];
        } else if k > 0 {
          assert r[k] == rest[k];
        }
      }
    }
  }

  /** Splitting loses exactly the white space: the fields contain no white
      space, only the outer ones can be empty, the text is the fields with
      one non-empty run of white space between each two, and concatenated
      the fields give back every other character in order. Together these
      make the fields the maximal white-space-free stretches of the text. */
  lemma SplitSpacesFields(s: string)
    ensures Concat(SplitSpaces(s)) == RemoveSpaces(s)
    ensures forall k, i :: 0 <= k < |SplitSpaces(s)| && 0 <= i < |SplitSpaces(s)[k]|
              ==> !IsSpace(SplitSpaces(s)[k][i])
    ensures forall k :: 0 < k < |SplitSpaces(s)| - 1 ==> SplitSpaces(s)[k] != ""
    ensures |Separators(s)| + 1 == |SplitSpaces(s)|
    ensures Interleave(SplitSpaces(s), Separators(s)) == s
  {
    SplitSpacesConcat(s);
    SplitSpacesNoSpace(s);
    SplitSpacesInterior(s);
    SplitSpacesRebuild(s);
  }

  /** The white-space runs `split(/\s+/)` removes, in order. */
  function Separators(s: string): (r: seq<string>)
    ensures forall k :: 0 <= k < |r| ==> r[k] != "" && AllSpace(r[k])
    decreases |s|
  {
    if s == [] then []
    else if IsSpace(s[0]) then [s[..LeadingSpaces(s)]] + Separators(TrimStart(s))
    else Separators(s[1..])
  }

  /** The fields with the separators put back between them. */
  function Interleave(fields: seq<string>, seps: seq<string>): string
    requires |fields| == |seps| + 1
    decreases |seps|
  {
    if seps == [] then fields[0]
    else fields[0] + seps[0] + Interleave(fields[1..], seps[1..])
  }

  lemma {:induction false} InterleaveExtendFirst(c: char, fields: seq<string>, seps: seq<string>)
    requires |fields| == |seps| + 1
    ensures Interleave([[c] + fields[0]] + fields[1..], seps) == [c] + Interleave(fields, seps)
  {
    var f := [[c] + fields[0]] + fields[1..];
    assert f[0] == [c] + fields[0] && f[1..] == fields[1..];
  }

  /** The split is undone by putting the separators back: the text is its
      fields joined by non-empty runs of white space, one run between each
      two consecutive fields. */
  lemma {:induction false} SplitSpacesRebuild(s: string)
    ensures |Separators(s)| + 1 == |SplitSpaces(s)|
    ensures Interleave(SplitSpaces(s), Separators(s)) == s
    decreases |s|
  {
    if s == [] {
    } else if IsSpace(s[0]) {
      SplitSpacesRebuild(TrimStart(s));
      RebuildAfterRun(s);
    } else {
      var rest := SplitSpaces(s[1..]);
      SplitSpacesRebuild(s[1..]);
      InterleaveExtendFirst(s[0], rest, Separators(s[1..]));
      assert s == [s[0]] + s[1..];
    }
  }

  /** The step of the rebuild for a text that starts with white space:
      the run becomes the first separator, after an empty first field. */
  lemma RebuildAfterRun(s: string)
    requires s != [] && IsSpace(s[0])
    requires |Separators(TrimStart(s))| + 1 == |SplitSpaces(TrimStart(s))|
    requires Interleave(SplitSpaces(TrimStart(s)), Separators(TrimStart(s))) == TrimStart(s)
    ensures |Separators(s)| + 1 == |SplitSpaces(s)|
    ensures Interleave(SplitSpaces(s), Separators(s)) == s
  {
    var t, lead := TrimStart(s), s[..LeadingSpaces(s)];
    assert s == lead + t;
    InterleaveAfterRun(s, lead, t, SplitSpaces(s), Separators(s), SplitSpaces(t), Separators(t));
  }

  /** An empty field and a run `lead` in front of the fields and separators
      of `t` rebuild `lead + t`. */
  lemma InterleaveAfterRun(s: string, lead: string, t: string, f: seq<string>, sep: seq<string>,
                           ft: seq<string>, st: seq<string>)
    requires s == lead + t && f == [""] + ft && sep == [lead] + st
    requires |st| + 1 == |ft| && Interleave(ft, st) == t
    ensures |sep| + 1 == |f| && Interleave(f, sep) == s
  {
    assert f[1..] == ft && sep[1..] == st;
    assert Interleave(f, sep) == f[0] + sep[0] + Interleave(ft, st);
    assert f[0] + sep[0] == lead;
  }

  /** A split of a text that does not start with white space begins with
      a non-empty field. */
  lemma SplitSpacesFirstField(s: string)
    requires s != [] && !IsSpace(s[0])
    ensures SplitSpaces(s)[0] != ""
  {
  }

  /** Only the first and the last field can be empty: every field between
      two runs of white space holds at least one character. */
  lemma {:induction false} SplitSpacesInterior(s: string)
    ensures forall k :: 0 < k < |SplitSpaces(s)| - 1 ==> SplitSpaces(s)[k] != ""
    decreases |s|
  {
    var r := SplitSpaces(s);
    if s == [] {
    } else if IsSpace(s[0]) {
      var t := TrimStart(s);
      SplitSpacesInterior(t);
      assert r[1..] == SplitSpaces(t);
      if t != [] {
        SplitSpacesFirstField(t);
      }
      forall k | 0 < k < |r| - 1 ensures r[k] != "" {
        assert r[k] == SplitSpaces(t)[k - 1];
      }
    } else {
      var rest := SplitSpaces(s[1..]);
      SplitSpacesInterior(s[1..]);
      forall k | 0 < k < |r| - 1 ensures r[k] != "" {
        assert r[k] == rest[k];
      }
    }
  }

  /** `parts.join(sep)`. */
  function Join(parts: seq<string>, sep: string): string {
    if parts == [] then ""
    else if |parts| == 1 then parts[0]
    else parts[0] + sep + Join(parts[1..], sep)
  }

  function DigitChar(d: nat): char
    requires d < 10
  {
    (48 + d) as char
  }

  function DigitValue(c: char): nat {
    if '0' <= c <= '9' then (c as int - '0' as int) as nat else 0
  }

  /** Decimal rendering of a natural number (`n.toString()`). */
  function Decimal(n: nat): (r: string)
    ensures |r| >= 1
    ensures forall i :: 0 <= i < |r| ==> '0' <= r[i] <= '9'
    ensures |r| > 1 ==> r[0] != '0'
  {
    if n < 10 then [DigitChar(n)] else Decimal(n / 10) + [DigitChar(n % 10)]
  }

  /** Reads a string of decimal digits back as a number. */
  function ParseDecimal(s: string): nat {
    if s == [] then 0 else ParseDecimal(s[..|s| - 1]) * 10 + DigitValue(s[|s| - 1])
  }

  lemma {:induction false} DecimalRoundTrip(n: nat)
    ensures ParseDecimal(Decimal(n)) == n
  {
    if n >= 10 {
      DecimalRoundTrip(n / 10);
      var d := Decimal(n);
      assert d[..|d| - 1] == Decimal(n / 10);
    }
  }
}
